=== FILE: README.md ===
# CommonTransforms core in Dafny

This project models the two parts of the `CommonTransforms` PySpark notebook
that hold their own logic, and proves what they promise.

- **`flatten_nested`** turns a table with nested columns into a flat one.
  - While any struct column exists, every struct column `nc` is replaced by one column `nc_cc` per child field `cc`. The other columns come first, in their order.
  - Once no struct column is left, every array column in turn is replaced in place by its `explode_outer`.
  - The recursion stops when only leaf columns remain.
- **The Julian date codec.**
  - `calendar_to_julian` encodes a date or timestamp column as an integer: the third and fourth characters of the year's text, followed by the *unpadded* day of the year.
  - `julian_to_calendar` decodes an integer column by the length of its text:
    - five characters are `YYDDD`, with the century pivot at 50 (00..50 → 20xx, 51..99 → 19xx);
    - seven characters are `YYYYDDD`;
    - any other length falls back to year 0 and day 0.
  - The decoded date is January 1 of the year, plus the day count, minus one.
  - Both methods take their columns from the schema the object captured when it was made, among those named in `subset`. They then rewrite the object's current table one column after another.

Modules:

- `Decimal` (`decimal.dfy`): the text of integers as the engine's casts make and read it, and the engine's 1-based `substring`.
- `Calendar` (`calendar.dfy`): proleptic Gregorian dates as (year, day of year), with `date_add` and `datediff`.
- `Julian` (`julian.dfy`): the per-value encoder and decoder, and the round-trip, boundary and padding lemmas.
- `Tables` (`tables.dfy`): schemas (leaf, struct and array types), values (null, scalar, record, array) and tables.
- `Flatten` (`flatten.dfy`) has three parts:
  - the struct pass as a projection by a list of column expressions;
  - the array pass as outer explodes;
  - the recursion as the function `Flatten`, with the imperative `FlattenNested` proved equal to it. `FlattenNested` builds its lists by appending in loops, as the source does.
- `Transforms` (`transforms.dfy`) has three parts:
  - the `CommonTransforms` class, holding the captured schema and the current table;
  - the two conversion methods, which loop over the captured schema;
  - the column-level specification they are proved against.

Four behaviours of the code a reader may not expect; the model follows the code:

- **Ineligible subset names.** A name in `subset` with no eligible column in the captured schema is skipped silently, because the filter at line 147/171 simply does not pick it. It is not reported as an error.
- **No seven-digit codes from the encoder.** The encoder keeps only two year digits, so 2024, day 45 encodes as 2445, not 202445.
- **Names may collide.** Flattening does not check that the new column names are unique.
- **No reverse call on the same object.** Both conversions select columns from the schema captured when the object was made. After `calendar_to_julian` on an object, `julian_to_calendar` on that same object still sees the column as a date and selects nothing (`SameObjectNoReverse`). Decoding the column back takes a new object made on the encoded table.

## Model

| member | source | states |
|---|---|---|
| Decimal.Digits | workspace/notebook/reusable/common-pyspark/CommonTransforms.Notebook/notebook-content.py:150 | the text of a non-negative integer is canonical digit text (no leading zero) ending in its units digit |
| Decimal.Show | workspace/notebook/reusable/common-pyspark/CommonTransforms.Notebook/notebook-content.py:174-176 | the text of a year starts with a digit exactly when the year is non-negative; every later character is a digit |
| Decimal.ParseNat | workspace/notebook/reusable/common-pyspark/CommonTransforms.Notebook/notebook-content.py:158-159 | the integer cast of digit text of length k is below 10^k |
| Decimal.Substring | workspace/notebook/reusable/common-pyspark/CommonTransforms.Notebook/notebook-content.py:152-176 | `substring(s, pos, len)` gives at most len characters, exactly len when s has them, each the character at pos-1+k |
| Decimal.ParseDigits | workspace/notebook/reusable/common-pyspark/CommonTransforms.Notebook/notebook-content.py:150-159 | casting an integer to text and back gives the integer |
| Decimal.DigitsOfParse | workspace/notebook/reusable/common-pyspark/CommonTransforms.Notebook/notebook-content.py:152-159 | canonical digit text is the text of its own value |
| Decimal.DigitsLength | workspace/notebook/reusable/common-pyspark/CommonTransforms.Notebook/notebook-content.py:152-160 | the text of n has length k exactly when 10^(k-1) <= n < 10^k, the basis of the decoder's length dispatch |
| Decimal.ParseConcat | workspace/notebook/reusable/common-pyspark/CommonTransforms.Notebook/notebook-content.py:152-176 | the value of concatenated digit texts is the first's value shifted by the second's length plus the second's value |
| Decimal.SplitDigits | workspace/notebook/reusable/common-pyspark/CommonTransforms.Notebook/notebook-content.py:152-159 | cutting the text of n after k characters gives n's leading places (quotient) and trailing places (remainder) |
| Decimal.SplitParse | workspace/notebook/reusable/common-pyspark/CommonTransforms.Notebook/notebook-content.py:152-159 | cutting any digit string of value v after k characters gives v's quotient and remainder by 10^(length - k) |
| Calendar.NewYear | workspace/notebook/reusable/common-pyspark/CommonTransforms.Notebook/notebook-content.py:162-174 | January 1 of a year is a valid date of that year |
| Calendar.Normalise | workspace/notebook/reusable/common-pyspark/CommonTransforms.Notebook/notebook-content.py:163 | a day number before or past the year is carried into earlier or later years and always yields a valid date; a day inside the year is kept |
| Calendar.NormaliseOrdinal | workspace/notebook/reusable/common-pyspark/CommonTransforms.Notebook/notebook-content.py:163 | carrying days between years keeps the absolute day number |
| Calendar.AddDays | workspace/notebook/reusable/common-pyspark/CommonTransforms.Notebook/notebook-content.py:163 | the engine's `date_add` always yields a valid date; `AddDaysOrdinal` proves it moves the day number by exactly n, and `AddDaysCompose` that two adds compose |
| Calendar.AddDaysOrdinal | workspace/notebook/reusable/common-pyspark/CommonTransforms.Notebook/notebook-content.py:163 | `date_add(d, n)` is a valid date exactly n days after d |
| Calendar.AddDaysCompose | workspace/notebook/reusable/common-pyspark/CommonTransforms.Notebook/notebook-content.py:163 | adding m days and then n days is adding m + n days |
| Calendar.OrdinalYearOrder | workspace/notebook/reusable/common-pyspark/CommonTransforms.Notebook/notebook-content.py:175 | every date of a year lies before every date of a later year |
| Calendar.OrdinalInjective | workspace/notebook/reusable/common-pyspark/CommonTransforms.Notebook/notebook-content.py:175 | distinct valid dates are a non-zero `datediff` apart |
| Calendar.DateDiff | workspace/notebook/reusable/common-pyspark/CommonTransforms.Notebook/notebook-content.py:175 | the engine's `datediff`, as a difference of day numbers; its meaning is proved by `DateDiffNewYear` and `DateDiffInverse` |
| Calendar.DateDiffInverse | workspace/notebook/reusable/common-pyspark/CommonTransforms.Notebook/notebook-content.py:175 | for valid dates, adding `datediff(a, b)` days to b gives a, so `datediff` is the inverse of `date_add` |
| Calendar.DateDiffNewYear | workspace/notebook/reusable/common-pyspark/CommonTransforms.Notebook/notebook-content.py:174-175 | `datediff(d, January 1 of d's year) + 1` is d's day of the year |
| Calendar.AddDaysYearRange | workspace/notebook/reusable/common-pyspark/CommonTransforms.Notebook/notebook-content.py:162-163 | adding up to 999 days to the day before a January 1 lands within one year before and two years after |
| Julian.DecodeParts | workspace/notebook/reusable/common-pyspark/CommonTransforms.Notebook/notebook-content.py:151-161 | the decoded day count is at most 999, and the year part is 0 exactly when the code's text has neither 5 nor 7 characters |
| Julian.Decode | workspace/notebook/reusable/common-pyspark/CommonTransforms.Notebook/notebook-content.py:150-163 | a resolved code is a valid date; the code is unresolved exactly when its text has neither 5 nor 7 characters |
| Julian.DecodeFiveDigits | workspace/notebook/reusable/common-pyspark/CommonTransforms.Notebook/notebook-content.py:152-163 | a five-digit code YYDDD decodes to (pivot(YY), DDD), that is January 1 of pivot(YY) plus DDD - 1 days |
| Julian.DecodeSevenDigits | workspace/notebook/reusable/common-pyspark/CommonTransforms.Notebook/notebook-content.py:154-163 | a seven-digit code YYYYDDD decodes to (YYYY, DDD), that is January 1 of YYYY plus DDD - 1 days |
| Julian.DecodeOtherLength | workspace/notebook/reusable/common-pyspark/CommonTransforms.Notebook/notebook-content.py:155-160 | every other length gives year 0 and day 0, the unresolved fallback |
| Julian.PivotYear | workspace/notebook/reusable/common-pyspark/CommonTransforms.Notebook/notebook-content.py:152-153 | a two-digit year maps into 1951..2050 with the same last two digits, into 2000..2050 exactly when it is at most 50 |
| Julian.PivotBoundary | workspace/notebook/reusable/common-pyspark/CommonTransforms.Notebook/notebook-content.py:152-153 | 50045 decodes to 2050 day 45 and 51045 to 1951 day 45 |
| Julian.PivotDate | workspace/notebook/reusable/common-pyspark/CommonTransforms.Notebook/notebook-content.py:152-163 | YY*1000 + DDD with a two-digit YY and any day of pivot(YY), day 366 of a leap year included, decodes to day DDD of pivot(YY) |
| Julian.PivotLeapDay | workspace/notebook/reusable/common-pyspark/CommonTransforms.Notebook/notebook-content.py:152-163 | 24366 decodes to 2024, day 366 |
| Julian.SevenDigitRoundTrip | workspace/notebook/reusable/common-pyspark/CommonTransforms.Notebook/notebook-content.py:154-163 | a four-digit year and a day of that year, written YYYYDDD, decode to that date |
| Julian.DayOfYear | workspace/notebook/reusable/common-pyspark/CommonTransforms.Notebook/notebook-content.py:174-175 | days since January 1 plus one is the date's day of the year |
| Julian.YearDigits | workspace/notebook/reusable/common-pyspark/CommonTransforms.Notebook/notebook-content.py:176 | `substring(year text, 3, 2)` is digit text of at most two characters |
| Julian.Encode | workspace/notebook/reusable/common-pyspark/CommonTransforms.Notebook/notebook-content.py:174-176 | the encoder, `concat(substring(year text, 3, 2), datediff + 1).cast("int")`; its behaviour is stated by `EncodeFourDigitYear`, `EncodeBound` and `RoundTrip` |
| Julian.EncodeFourDigitYear | workspace/notebook/reusable/common-pyspark/CommonTransforms.Notebook/notebook-content.py:176 | for a four-digit year the code is (year mod 100) shifted by the day's own digit count, plus the day: no zero padding |
| Julian.YearDigitsValue | workspace/notebook/reusable/common-pyspark/CommonTransforms.Notebook/notebook-content.py:176 | for a four-digit year, the third and fourth characters of its text read as the year mod 100 |
| Julian.EncodeThreeDigitDay | workspace/notebook/reusable/common-pyspark/CommonTransforms.Notebook/notebook-content.py:176 | with a three-digit day the code is (year mod 100) * 1000 + day |
| Julian.EncodeBound | workspace/notebook/reusable/common-pyspark/CommonTransforms.Notebook/notebook-content.py:176 | the code of a valid date is below 100000, so it fits the integer column |
| Julian.EncodeUnpaddedExample | workspace/notebook/reusable/common-pyspark/CommonTransforms.Notebook/notebook-content.py:152-176 | 2024 day 45 encodes as 2445, which decodes to the unresolved fallback |
| Julian.RoundTrip | workspace/notebook/reusable/common-pyspark/CommonTransforms.Notebook/notebook-content.py:150-176 | decoding the code of a valid date gives it back exactly when its day has three digits and its year is in 1951..1999 or 2010..2050 |
| Julian.RoundTripInRange | workspace/notebook/reusable/common-pyspark/CommonTransforms.Notebook/notebook-content.py:150-176 | the "if" half of the round trip |
| Julian.RoundTripOnlyInRange | workspace/notebook/reusable/common-pyspark/CommonTransforms.Notebook/notebook-content.py:150-176 | the "only if" half of the round trip |
| Julian.DecodedFiveDigits | workspace/notebook/reusable/common-pyspark/CommonTransforms.Notebook/notebook-content.py:150-163 | a five-digit code decodes to day DDD - 1 after January 1 of the pivoted year, which lies in 1950..2052 |
| Julian.FiveDigitCode | workspace/notebook/reusable/common-pyspark/CommonTransforms.Notebook/notebook-content.py:176 | with a four-digit year the code has five digits exactly when the day has three digits and the year ends in 10..99, and the code is then YY * 1000 + DDD |
| Julian.SameDayOfYear | workspace/notebook/reusable/common-pyspark/CommonTransforms.Notebook/notebook-content.py:163 | adding day-of-year minus one to a January 1 lands on that date only from that date's own year |
| Julian.PaddingDefect | workspace/notebook/reusable/common-pyspark/CommonTransforms.Notebook/notebook-content.py:152-176 | with a four-digit year, a day below 100 or a year ending in 00..09 gives a code below 10000, which never decodes |
| Julian.ShiftedBelow | workspace/notebook/reusable/common-pyspark/CommonTransforms.Notebook/notebook-content.py:176 | helper of `PaddingDefect`: the year part shifted by the digit count of a day below 100, or a one-digit year shifted by a three-digit day, is below 10000 |
| Julian.ShortCode | workspace/notebook/reusable/common-pyspark/CommonTransforms.Notebook/notebook-content.py:176 | helper of `ShiftedBelow`: a two-digit year shifted by at most two places, or a one-digit year by three, stays below 10000 |
| Tables.FindColumn | workspace/notebook/reusable/common-pyspark/CommonTransforms.Notebook/notebook-content.py:150-178 | the first column with the name, or -1 when none has it |
| Tables.RemoveAt | workspace/notebook/reusable/common-pyspark/CommonTransforms.Notebook/notebook-content.py:164-177 | dropping a column keeps the others in order |
| Flatten.Positions | workspace/notebook/reusable/common-pyspark/CommonTransforms.Notebook/notebook-content.py:194-201 | the positions of the struct (or array) columns: increasing, and each of that category |
| Flatten.StructCols | workspace/notebook/reusable/common-pyspark/CommonTransforms.Notebook/notebook-content.py:194-196 | the `struct_cols` list: `Positions` makes it increasing and sound, and `PositionsComplete` shows it misses no struct column |
| Flatten.ArrayCols | workspace/notebook/reusable/common-pyspark/CommonTransforms.Notebook/notebook-content.py:198-201 | the `array_cols` list: `Positions` makes it increasing and sound, and `PositionsComplete` shows it misses no array column |
| Flatten.PositionsComplete | workspace/notebook/reusable/common-pyspark/CommonTransforms.Notebook/notebook-content.py:194-201 | every struct (or array) column is listed |
| Flatten.PositionsNone | workspace/notebook/reusable/common-pyspark/CommonTransforms.Notebook/notebook-content.py:194-215 | a schema without columns of a category gives an empty list, so that branch is not taken |
| Flatten.NoNestedIsFlat | workspace/notebook/reusable/common-pyspark/CommonTransforms.Notebook/notebook-content.py:203-226 | when neither list is non-empty, every column is a leaf: the recursion stops only at a flat schema |
| Flatten.CollectColumns | workspace/notebook/reusable/common-pyspark/CommonTransforms.Notebook/notebook-content.py:194-219 | the scan of `df.dtypes` that appends struct (array) columns collects exactly their positions |
| Flatten.KeptColumns | workspace/notebook/reusable/common-pyspark/CommonTransforms.Notebook/notebook-content.py:208 | the projection list starts with the non-struct columns, in schema order |
| Flatten.StructProjection | workspace/notebook/reusable/common-pyspark/CommonTransforms.Notebook/notebook-content.py:204-211 | the built projection list is the kept columns followed by each struct column's children in field order |
| Flatten.AppendChildren | workspace/notebook/reusable/common-pyspark/CommonTransforms.Notebook/notebook-content.py:210-211 | the inner loop appends exactly the children of struct column nc, in field order |
| Flatten.ChildPlanPrefix | workspace/notebook/reusable/common-pyspark/CommonTransforms.Notebook/notebook-content.py:209-211 | the children of one more struct column extend the projection list at its end |
| Flatten.ProjField | workspace/notebook/reusable/common-pyspark/CommonTransforms.Notebook/notebook-content.py:211 | definition of the column an expression yields: the column itself, or the child field aliased `nc_cc`; stated by `StructPassKeeps` and `StructPassExpands` |
| Flatten.Child | workspace/notebook/reusable/common-pyspark/CommonTransforms.Notebook/notebook-content.py:211 | definition of `F.col("nc.cc")` on one value, null for a null struct; stated by `StructPassExpands` |
| Flatten.ProjValue | workspace/notebook/reusable/common-pyspark/CommonTransforms.Notebook/notebook-content.py:211-212 | definition of an expression's value on one row; stated by `StructPassKeeps` and `StructPassExpands` |
| Flatten.PlanSchema | workspace/notebook/reusable/common-pyspark/CommonTransforms.Notebook/notebook-content.py:211-212 | the schema of a projection has one column per expression |
| Flatten.Select | workspace/notebook/reusable/common-pyspark/CommonTransforms.Notebook/notebook-content.py:212 | definition of `select`: every row kept, each output column the value of its expression; the promises are proved by `StructPassKeeps`, `StructPassExpands` and `StructPassWidth` |
| Flatten.KeptPlan | workspace/notebook/reusable/common-pyspark/CommonTransforms.Notebook/notebook-content.py:208 | the kept list is a valid projection |
| Flatten.ChildrenOf | workspace/notebook/reusable/common-pyspark/CommonTransforms.Notebook/notebook-content.py:210-211 | a struct column contributes one expression per child field |
| Flatten.ChildPlan | workspace/notebook/reusable/common-pyspark/CommonTransforms.Notebook/notebook-content.py:209-211 | the children of the struct columns form a valid projection |
| Flatten.StructPlan | workspace/notebook/reusable/common-pyspark/CommonTransforms.Notebook/notebook-content.py:208-211 | the whole projection list is valid |
| Flatten.StructPass | workspace/notebook/reusable/common-pyspark/CommonTransforms.Notebook/notebook-content.py:208-212 | a struct pass keeps every row |
| Flatten.KeptPlanAt | workspace/notebook/reusable/common-pyspark/CommonTransforms.Notebook/notebook-content.py:208 | non-struct column i is kept at its rank among the non-struct columns |
| Flatten.ChildPlanAt | workspace/notebook/reusable/common-pyspark/CommonTransforms.Notebook/notebook-content.py:209-211 | child j of struct column i comes after the children of the struct columns before i |
| Flatten.StructPassWidth | workspace/notebook/reusable/common-pyspark/CommonTransforms.Notebook/notebook-content.py:208-212 | a struct pass has one column per non-struct column plus one per child field of a struct column |
| Flatten.StructPassKeeps | workspace/notebook/reusable/common-pyspark/CommonTransforms.Notebook/notebook-content.py:208-212 | a non-struct column keeps its name, type and values, at its rank among the non-struct columns |
| Flatten.StructPassExpands | workspace/notebook/reusable/common-pyspark/CommonTransforms.Notebook/notebook-content.py:209-212 | child cc of struct column nc comes after all kept columns, in column and field order, named `nc_cc` with the child's type and value (null for a null struct) |
| Flatten.StructPlanChildAt | workspace/notebook/reusable/common-pyspark/CommonTransforms.Notebook/notebook-content.py:208-211 | the projection list holds child cc of struct column nc at the position after all kept columns and all earlier children |
| Flatten.StructPassWellTyped | workspace/notebook/reusable/common-pyspark/CommonTransforms.Notebook/notebook-content.py:208-212 | a struct pass keeps every value conforming to its column's type |
| Flatten.Elements | workspace/notebook/reusable/common-pyspark/CommonTransforms.Notebook/notebook-content.py:222 | definition of `explode_outer`'s values: an array's elements, or a single null for an empty or null array; the promise is proved by `OuterKeepsRow` and `ExplodeRowsCount` |
| Flatten.ExplodeRow | workspace/notebook/reusable/common-pyspark/CommonTransforms.Notebook/notebook-content.py:222 | one output row per element, carrying that element in the exploded column and every other value unchanged |
| Flatten.OuterKeepsRow | workspace/notebook/reusable/common-pyspark/CommonTransforms.Notebook/notebook-content.py:222 | a row whose array is empty or null yields exactly one row, with that column null |
| Flatten.ExplodeRows | workspace/notebook/reusable/common-pyspark/CommonTransforms.Notebook/notebook-content.py:222 | exploding keeps every row's width |
| Flatten.ExplodeRowsCount | workspace/notebook/reusable/common-pyspark/CommonTransforms.Notebook/notebook-content.py:222 | a row yields max(1, m) rows, so no row is ever dropped |
| Flatten.Explode | workspace/notebook/reusable/common-pyspark/CommonTransforms.Notebook/notebook-content.py:222 | definition of `withColumn(c, explode_outer(c))`: the column keeps its place and name and takes the element type; row counts are proved by `ExplodeAllCount` and `TwoArrayColumns` |
| Flatten.ExplodeAll | workspace/notebook/reusable/common-pyspark/CommonTransforms.Notebook/notebook-content.py:220-223 | exploding columns one after another keeps the schema width |
| Flatten.ArrayPass | workspace/notebook/reusable/common-pyspark/CommonTransforms.Notebook/notebook-content.py:220-223 | an array pass gives a well-shaped table |
| Flatten.ExplodeColumns | workspace/notebook/reusable/common-pyspark/CommonTransforms.Notebook/notebook-content.py:220-223 | the loop that reassigns `exploded_df` explodes the array columns one after another on the running table |
| Flatten.ExplodeRowsAppend | workspace/notebook/reusable/common-pyspark/CommonTransforms.Notebook/notebook-content.py:222 | exploding is row by row: exploding a concatenation is concatenating the explosions |
| Flatten.ExplodeAllAppend | workspace/notebook/reusable/common-pyspark/CommonTransforms.Notebook/notebook-content.py:220-223 | a run of explodes is row by row as well |
| Flatten.ExplodeAllCount | workspace/notebook/reusable/common-pyspark/CommonTransforms.Notebook/notebook-content.py:220-223 | the exploded table has, for every input row, the product of that row's array fans (max(1, length)), summed over the rows |
| Flatten.FanTotalAppend | workspace/notebook/reusable/common-pyspark/CommonTransforms.Notebook/notebook-content.py:220-223 | the row count of a concatenation is the sum of the row counts |
| Flatten.FanTotalSame | workspace/notebook/reusable/common-pyspark/CommonTransforms.Notebook/notebook-content.py:220-223 | rows that agree on the array columns still to explode each make the same number of rows |
| Flatten.ExplodeRowsFan | workspace/notebook/reusable/common-pyspark/CommonTransforms.Notebook/notebook-content.py:221-222 | exploding one array column multiplies each row's count by that column's fan, and the remaining columns carry on |
| Flatten.FanTotalNoColumns | workspace/notebook/reusable/common-pyspark/CommonTransforms.Notebook/notebook-content.py:220-223 | with no array column left, the row count is unchanged |
| Flatten.ExplodeRowsCons | workspace/notebook/reusable/common-pyspark/CommonTransforms.Notebook/notebook-content.py:222 | exploding a row followed by more rows is that row's explosion followed by theirs |
| Flatten.FanProductAgree | workspace/notebook/reusable/common-pyspark/CommonTransforms.Notebook/notebook-content.py:220-223 | rows that agree on the array columns explode into equally many rows |
| Flatten.Fan | workspace/notebook/reusable/common-pyspark/CommonTransforms.Notebook/notebook-content.py:222 | a value fans out into max(1, m) rows for an array of m elements, and 1 row otherwise |
| Flatten.ExplodeAllOneRow | workspace/notebook/reusable/common-pyspark/CommonTransforms.Notebook/notebook-content.py:220-223 | one row explodes into the product of its arrays' fans |
| Flatten.TwoArrayColumns | workspace/notebook/reusable/common-pyspark/CommonTransforms.Notebook/notebook-content.py:220-223 | with two array columns of lengths m and n, a row becomes max(1, m) * max(1, n) rows |
| Flatten.ExplodeRowsWellTyped | workspace/notebook/reusable/common-pyspark/CommonTransforms.Notebook/notebook-content.py:222 | exploded rows conform to the schema with the element type in place |
| Flatten.ExplodeAllWellTyped | workspace/notebook/reusable/common-pyspark/CommonTransforms.Notebook/notebook-content.py:220-223 | an array pass keeps every value conforming to its column's type |
| Flatten.FieldsSizeConcat | workspace/notebook/reusable/common-pyspark/CommonTransforms.Notebook/notebook-content.py:213-224 | the measure (count of struct and array constructors) adds up over concatenated schemas |
| Flatten.StructPassSizePrefix | workspace/notebook/reusable/common-pyspark/CommonTransforms.Notebook/notebook-content.py:208-213 | over any prefix of the schema, the projection's measure is the prefix's measure minus its struct count |
| Flatten.StructPassShrinks | workspace/notebook/reusable/common-pyspark/CommonTransforms.Notebook/notebook-content.py:213 | a struct pass lowers the measure by the number of struct columns |
| Flatten.ExplodeShrinks | workspace/notebook/reusable/common-pyspark/CommonTransforms.Notebook/notebook-content.py:222 | one explode lowers the measure by one |
| Flatten.ExplodeAllShrinks | workspace/notebook/reusable/common-pyspark/CommonTransforms.Notebook/notebook-content.py:220-224 | a run of explodes lowers the measure by one per exploded column |
| Flatten.ArrayPassShrinks | workspace/notebook/reusable/common-pyspark/CommonTransforms.Notebook/notebook-content.py:224 | an array pass lowers the measure by the number of array columns |
| Flatten.Flatten | workspace/notebook/reusable/common-pyspark/CommonTransforms.Notebook/notebook-content.py:189-226 | the recursion terminates on the measure, and its result has only leaf columns |
| Flatten.FlattenNested | workspace/notebook/reusable/common-pyspark/CommonTransforms.Notebook/notebook-content.py:189-226 | the imperative `flatten_nested` computes exactly `Flatten` |
| Flatten.StructClosure | workspace/notebook/reusable/common-pyspark/CommonTransforms.Notebook/notebook-content.py:203-213 | repeating struct passes alone terminates |
| Flatten.FlatUnchanged | workspace/notebook/reusable/common-pyspark/CommonTransforms.Notebook/notebook-content.py:226 | a table that is already flat comes back unchanged |
| Flatten.FlattenIdempotent | workspace/notebook/reusable/common-pyspark/CommonTransforms.Notebook/notebook-content.py:189-226 | flattening twice is flattening once |
| Flatten.StructLeafSwap | workspace/notebook/reusable/common-pyspark/CommonTransforms.Notebook/notebook-content.py:203-213 | a struct column and the non-struct (array or leaf) column after it may be given in either order: the struct pass gives the same table, and so does the whole flattening |
| Flatten.StructPlanSwap | workspace/notebook/reusable/common-pyspark/CommonTransforms.Notebook/notebook-content.py:204-211 | exchanging a struct column with the non-struct column after it only renames the positions in the projection list: kept columns stay in their order, struct children in theirs |
| Flatten.KeptPlanSwap | workspace/notebook/reusable/common-pyspark/CommonTransforms.Notebook/notebook-content.py:208 | helper of `StructPlanSwap`: the kept list of the exchanged schema is the renamed kept list |
| Flatten.StructColsSwap | workspace/notebook/reusable/common-pyspark/CommonTransforms.Notebook/notebook-content.py:205-207 | helper of `StructPlanSwap`: the struct columns of the exchanged schema are the renamed struct columns, in the same order |
| Flatten.ChildPlanSwap | workspace/notebook/reusable/common-pyspark/CommonTransforms.Notebook/notebook-content.py:209-211 | helper of `StructPlanSwap`: the children of renamed struct columns are the renamed children |
| Flatten.SelectSwap | workspace/notebook/reusable/common-pyspark/CommonTransforms.Notebook/notebook-content.py:212 | selecting the renamed expressions from the exchanged table gives the same columns and values |
| Flatten.StructsBeforeArrays | workspace/notebook/reusable/common-pyspark/CommonTransforms.Notebook/notebook-content.py:203-215 | struct passes reach their own fixpoint, with no struct column and the same rows, before any array is exploded; flattening is flattening that fixpoint |
| Flatten.FlattenWellTyped | workspace/notebook/reusable/common-pyspark/CommonTransforms.Notebook/notebook-content.py:189-226 | flattening keeps every value conforming to its column's type |
| Transforms.DecodeCell | workspace/notebook/reusable/common-pyspark/CommonTransforms.Notebook/notebook-content.py:150-163 | a decoded cell is never null and is always a date cell (a date or the fallback date); what it holds is stated by `DecodeCellCodes` and `DecodeCellFallback` |
| Transforms.EncodeCell | workspace/notebook/reusable/common-pyspark/CommonTransforms.Notebook/notebook-content.py:174-176 | an encoded cell is an integer cell or null, and null exactly when the input is not a date or timestamp; its value is stated by `CellRoundTrip` |
| Transforms.DecodeCellCodes | workspace/notebook/reusable/common-pyspark/CommonTransforms.Notebook/notebook-content.py:150-163 | a five-digit cell YYDDD becomes day DDD of pivot(YY); a seven-digit cell becomes day DDD of YYYY |
| Transforms.DecodeCellFallback | workspace/notebook/reusable/common-pyspark/CommonTransforms.Notebook/notebook-content.py:155-163 | null cells and codes of any other length become the unresolved fallback date |
| Transforms.CellRoundTrip | workspace/notebook/reusable/common-pyspark/CommonTransforms.Notebook/notebook-content.py:150-178 | a date (or a timestamp's date) survives encoding then decoding exactly in the round-trip range |
| Transforms.MapCells | workspace/notebook/reusable/common-pyspark/CommonTransforms.Notebook/notebook-content.py:150-176 | definition of the per-cell rewrite of a column; what it computes is proved by `DecodeCellCodes`, `DecodeCellFallback` and `CellRoundTrip` |
| Transforms.Convert | workspace/notebook/reusable/common-pyspark/CommonTransforms.Notebook/notebook-content.py:149-178 | a column rewrite is accepted exactly when the current table has the column with an accepted type; rows and width are kept; unique names stay unique |
| Transforms.ConvertRows | workspace/notebook/reusable/common-pyspark/CommonTransforms.Notebook/notebook-content.py:164-178 | definition of the row-level `withColumn`/`drop`/`withColumnRenamed` chain: the column is removed and its converted value appended; the promises are proved by `ConvertLookupSelf` and `ConvertLookupOthers` |
| Transforms.ConvertDefined | workspace/notebook/reusable/common-pyspark/CommonTransforms.Notebook/notebook-content.py:149-178 | a rewrite is accepted exactly when a reader finds the column with an accepted type |
| Transforms.FindAfterMove | workspace/notebook/reusable/common-pyspark/CommonTransforms.Notebook/notebook-content.py:164-178 | after a column moves to the end, every other name finds the same column, shifted past the gap |
| Transforms.FoundFirst | workspace/notebook/reusable/common-pyspark/CommonTransforms.Notebook/notebook-content.py:164-178 | the first column of a name is the one a lookup by that name finds |
| Transforms.NotFound | workspace/notebook/reusable/common-pyspark/CommonTransforms.Notebook/notebook-content.py:164-178 | without a column of that name, a lookup finds nothing |
| Transforms.MovedIsFound | workspace/notebook/reusable/common-pyspark/CommonTransforms.Notebook/notebook-content.py:164-178 | with unique names, the rewritten column's name finds it at the end |
| Transforms.ConvertLookupOthers | workspace/notebook/reusable/common-pyspark/CommonTransforms.Notebook/notebook-content.py:164-178 | a rewrite leaves every other column's type and values unchanged |
| Transforms.ConvertRowsKeep | workspace/notebook/reusable/common-pyspark/CommonTransforms.Notebook/notebook-content.py:164-178 | converting one cell of every row keeps each other column's cells, shifted one place left when it stood after the rewritten one |
| Transforms.ConvertLookupOther | workspace/notebook/reusable/common-pyspark/CommonTransforms.Notebook/notebook-content.py:164-178 | the rewrite of one column leaves a column of any other name with the same type and values |
| Transforms.ConvertLookupSelf | workspace/notebook/reusable/common-pyspark/CommonTransforms.Notebook/notebook-content.py:164-178 | the rewritten column keeps its name, takes the target type and holds the converted values |
| Transforms.MoveToEnd | workspace/notebook/reusable/common-pyspark/CommonTransforms.Notebook/notebook-content.py:164-178 | definition of the reference table for the round trip (the column moved last); used by `ColumnRoundTrip` |
| Transforms.SameObjectNoReverse | workspace/notebook/reusable/common-pyspark/CommonTransforms.Notebook/notebook-content.py:145-180 | on an object whose captured schema has the name as a date column, `julian_to_calendar` picks nothing for it and leaves the table unchanged, also after `calendar_to_julian` |
| Transforms.EligibleNone | workspace/notebook/reusable/common-pyspark/CommonTransforms.Notebook/notebook-content.py:147 | when no column named in the subset has an accepted type, the filter picks nothing |
| Transforms.ColumnRoundTrip | workspace/notebook/reusable/common-pyspark/CommonTransforms.Notebook/notebook-content.py:145-180 | the encoder's column rewrite, then the decoder's, on a date column whose dates are all in range gives the table back, with that column last. Through the methods this needs a second object made on the encoded table; see `SameObjectNoReverse` |
| Transforms.Run | workspace/notebook/reusable/common-pyspark/CommonTransforms.Notebook/notebook-content.py:148-173 | rewriting column after column keeps the rows |
| Transforms.RunStep | workspace/notebook/reusable/common-pyspark/CommonTransforms.Notebook/notebook-content.py:148-173 | one more eligible column: its rewrite is applied only if the run so far was accepted |
| Transforms.ConvertStep | workspace/notebook/reusable/common-pyspark/CommonTransforms.Notebook/notebook-content.py:147-173 | one loop step: a column not picked leaves the outcome, a picked one is rewritten or rejects the run |
| Transforms.RunStops | workspace/notebook/reusable/common-pyspark/CommonTransforms.Notebook/notebook-content.py:148-173 | after a rejected rewrite the rest of the run changes nothing |
| Transforms.RunStopsEarly | workspace/notebook/reusable/common-pyspark/CommonTransforms.Notebook/notebook-content.py:148-173 | a rejection at column k leaves the outcome of the run up to column k |
| Transforms.RunKeepsUnique | workspace/notebook/reusable/common-pyspark/CommonTransforms.Notebook/notebook-content.py:148-173 | a run keeps column names unique |
| Transforms.Eligible | workspace/notebook/reusable/common-pyspark/CommonTransforms.Notebook/notebook-content.py:147 | the generator of picked names (also line 171); stated by `EligibleMeaning`, `EligibleStep` and `EligiblePrefix` |
| Transforms.EligibleMeaning | workspace/notebook/reusable/common-pyspark/CommonTransforms.Notebook/notebook-content.py:147-171 | a name is picked exactly when it is in `subset` and names a captured column of an accepted type (IntegerType to decode; DateType or TimestampType to encode) |
| Transforms.EligibleDistinct | workspace/notebook/reusable/common-pyspark/CommonTransforms.Notebook/notebook-content.py:147-171 | with unique captured names, no column is picked twice |
| Transforms.EligibleStep | workspace/notebook/reusable/common-pyspark/CommonTransforms.Notebook/notebook-content.py:147-171 | the picked columns are listed in captured-schema order |
| Transforms.EligiblePrefix | workspace/notebook/reusable/common-pyspark/CommonTransforms.Notebook/notebook-content.py:147-171 | the columns picked from a prefix of the schema start the full list |
| Transforms.RunUntouched | workspace/notebook/reusable/common-pyspark/CommonTransforms.Notebook/notebook-content.py:148-173 | a run never touches a column it does not name |
| Transforms.RunConverts | workspace/notebook/reusable/common-pyspark/CommonTransforms.Notebook/notebook-content.py:148-178 | an accepted run over distinct names converts every named column of the original table |
| Transforms.ConversionEffect | workspace/notebook/reusable/common-pyspark/CommonTransforms.Notebook/notebook-content.py:145-180 | a column is untouched unless the captured schema has it with an accepted type and `subset` names it; after an accepted run each such column holds the converted values under its own name |
| Transforms.CommonTransforms.constructor | workspace/notebook/reusable/common-pyspark/CommonTransforms.Notebook/notebook-content.py:46-49 | the object holds the table and captures its schema |
| Transforms.CommonTransforms.ConvertColumns | workspace/notebook/reusable/common-pyspark/CommonTransforms.Notebook/notebook-content.py:147-173 | the loop over the captured schema leaves the table and acceptance that `Run` gives for the picked columns |
| Transforms.CommonTransforms.JulianToCalendar | workspace/notebook/reusable/common-pyspark/CommonTransforms.Notebook/notebook-content.py:145-167 | `julian_to_calendar` decodes every picked integer column, as `Run` with the decoder states |
| Transforms.CommonTransforms.CalendarToJulian | workspace/notebook/reusable/common-pyspark/CommonTransforms.Notebook/notebook-content.py:169-180 | `calendar_to_julian` encodes every picked date or timestamp column, as `Run` with the encoder states |

## Left out

- `trim`, `replace_null`, `deduplicate`, `drop_sys_columns`, `add_lit_cols`, `utc_to_local`, `local_to_utc`, `change_timezone` and `add_checksum_col` (lines 52-143, 182-186). Each is a single call into the engine (or into time-zone data or SHA-1) with no logic of its own.
- The `input_columns` field (line 50): no modelled method reads it.
- The engine itself:
  - lazy evaluation and partitioned execution;
  - the analysis error a rejected column raises. It is modelled as `ok == false`, with the table keeping the rewrites made before the rejection.
- Integer width: IntegerType is 32 bits, while codes here are unbounded naturals. `Julian.EncodeBound` shows that the encoder stays below 100000.
- DecodeCell: a negative code is modelled as the unresolved fallback. The engine would instead read its text, so "-1234" has five characters and yields an odd year text.
- DecodeCell: what the engine makes of the fallback text "0-01-01" (line 162) is not pinned down. It is the abstract `FallbackDate`. Null cells take the same fallback, because no `when` branch holds for them.
- DecodeCell: the comparison of the year text with 50 (line 152) is modelled as a numeric comparison of the two digits.
- EncodeCell:
  - years below 1000 (and negative years) are not modelled as the engine handles them. Their reference-year text is not a four-digit year, so the `datediff` cast fails. Years of 10000 and more depend on the engine version: a parser that accepts longer years resolves the reference date, and the code is then what `Encode` computes; the round-trip lemmas cover only 1000..9999.
  - a timestamp's time of day and session time zone are dropped; only its date is encoded.
  - the unresolved fallback date encodes as null.
- Accepts: the type tests at lines 147 and 171 compare `str(x.dataType)` with "IntegerType", "DateType" and "TimestampType". The model reads them as "the captured type is integer, date or timestamp", which holds where the string of a type is its bare class name; other PySpark versions print types differently, and then no column is picked.
- Convert: a picked column whose current type no longer matches its captured type is rejected. The engine would convert it through its text.
- Convert: clashes between the temporary names (`x_year`, `x_days`, `x_ref_year`, `x_calendar`, `x_datediff`, `x_julian`) and existing columns are not modelled.
- Convert: column names are treated as plain identifiers. The source passes each raw name to the engine's name parser, and the model does not capture the errors this raises. A name with a dot, such as `a.b`, is read by `col(x.name)` (lines 150-176) as a field access and fails analysis. The SQL text spliced together at line 163 fails to parse for a name such as `due-date`. In the model, `Convert` accepts both.
- Convert and Lookup read a column by its first occurrence. Duplicate column names are not modelled; the lemmas about the rewritten column require unique names.
- Flatten: column and field names are treated as plain identifiers. The source splices them into column references, and the analysis errors this raises are not modelled. A struct field named `a.b` makes `F.col("s.a.b")` at line 211 look for a field `a`, and `select(f"{nc}.*")` at line 210 and the kept names at lines 208 and 212 fail in the same way for dotted names. The model's `Flatten` always returns a table, here with a column named `s_a.b`.
- Flatten: line 208 drops a non-struct column whose name equals a struct column's name; the model keeps columns by position, so it keeps it.
- Flatten works on column positions, not names:
  - a new name `nc_cc` that clashes with an existing column is kept as a separate column. In the engine, later references by that name would be ambiguous.
  - map columns count as leaves, because their type name starts with neither "struct" nor "array".
  - a record value with fewer values than its struct type has fields reads the missing fields as null.

=== FILE: calendar.dfy ===
/**
 * Calendar dates in the proleptic Gregorian calendar, kept as a year and a
 * 1-based day of that year, with the engine's date arithmetic: adding a
 * (possibly negative or oversized) number of days, and the number of days
 * between two dates.
 */
module Calendar {

  datatype Date = Date(year: int, dayOfYear: nat)

  predicate IsLeap(y: int) {
    y % 4 == 0 && (y % 100 != 0 || y % 400 == 0)
  }

  function DaysInYear(y: int): nat {
    if IsLeap(y) then 366 else 365
  }

  predicate ValidDate(d: Date) {
    1 <= d.dayOfYear <= DaysInYear(d.year)
  }

  /** January 1 of year y. */
  function NewYear(y: int): (d: Date)
    ensures ValidDate(d) && d.year == y
  {
    Date(y, 1)
  }

  /**
   * The date that is day k of year y, where k may fall before the first
   * or after the last day of y: it is carried into earlier or later years.
   */
  function Normalise(y: int, k: int): (d: Date)
    ensures ValidDate(d)
    ensures 1 <= k <= DaysInYear(y) ==> d == Date(y, k)
    decreases k < 1, if k < 1 then -k else k
  {
    if k < 1 then Normalise(y - 1, k + DaysInYear(y - 1))
    else if k > DaysInYear(y) then Normalise(y + 1, k - DaysInYear(y))
    else Date(y, k)
  }

  /** The engine's `date_add`: the date n days after d (before it when n < 0). */
  function AddDays(d: Date, n: int): (r: Date)
    ensures ValidDate(r)
  {
    Normalise(d.year, d.dayOfYear + n)
  }

  /** Days from January 1 of year 0 to January 1 of year y (negative for y < 0). */
  function DaysBeforeYear(y: int): int
    decreases if y >= 0 then y else -y
  {
    if y == 0 then 0
    else if y > 0 then DaysBeforeYear(y - 1) + DaysInYear(y - 1)
    else DaysBeforeYear(y + 1) - DaysInYear(y)
  }

  /** The day number of d, counted from January 1 of year 0. */
  function Ordinal(d: Date): int {
    DaysBeforeYear(d.year) + d.dayOfYear - 1
  }

  /** The engine's `datediff(a, b)`: days from b to a. */
  function DateDiff(a: Date, b: Date): int {
    Ordinal(a) - Ordinal(b)
  }

  lemma YearStep(y: int)
    ensures DaysBeforeYear(y + 1) == DaysBeforeYear(y) + DaysInYear(y)
  {
  }

  /** Normalising keeps the day number: day k of year y is k - 1 days after y's January 1. */
  lemma {:induction false} NormaliseOrdinal(y: int, k: int)
    ensures Ordinal(Normalise(y, k)) == DaysBeforeYear(y) + k - 1
    decreases k < 1, if k < 1 then -k else k
  {
    if k < 1 {
      NormaliseOrdinal(y - 1, k + DaysInYear(y - 1));
      YearStep(y - 1);
    } else if k > DaysInYear(y) {
      NormaliseOrdinal(y + 1, k - DaysInYear(y));
      YearStep(y);
    }
  }

  /** Adding n days moves the day number by exactly n and yields a real date. */
  lemma AddDaysOrdinal(d: Date, n: int)
    ensures ValidDate(AddDays(d, n))
    ensures Ordinal(AddDays(d, n)) == Ordinal(d) + n
  {
    NormaliseOrdinal(d.year, d.dayOfYear + n);
  }

  /** Every date of year y lies before every date of a later year. */
  lemma {:induction false} OrdinalYearOrder(a: Date, b: Date)
    requires ValidDate(a) && ValidDate(b) && a.year < b.year
    ensures Ordinal(a) < Ordinal(b)
    decreases b.year - a.year
  {
    YearStep(a.year);
    if a.year + 1 < b.year {
      OrdinalYearOrder(Date(a.year + 1, 1), b);
    }
  }

  /** Distinct valid dates have distinct day numbers. */
  lemma OrdinalInjective(a: Date, b: Date)
    requires ValidDate(a) && ValidDate(b) && Ordinal(a) == Ordinal(b)
    ensures a == b
  {
    if a.year < b.year {
      OrdinalYearOrder(a, b);
    } else if b.year < a.year {
      OrdinalYearOrder(b, a);
    }
  }

  /** Adding days in two steps is adding their sum. */
  lemma AddDaysCompose(d: Date, m: int, n: int)
    ensures AddDays(AddDays(d, m), n) == AddDays(d, m + n)
  {
    AddDaysOrdinal(d, m);
    AddDaysOrdinal(AddDays(d, m), n);
    AddDaysOrdinal(d, m + n);
    OrdinalInjective(AddDays(AddDays(d, m), n), AddDays(d, m + n));
  }

  /** Days since January 1, plus one, is the day of the year. */
  lemma DateDiffNewYear(d: Date)
    ensures DateDiff(d, NewYear(d.year)) + 1 == d.dayOfYear
  {
  }

  /** `datediff` undoes `date_add`: adding the difference of two valid dates to the second gives the first. */
  lemma DateDiffInverse(a: Date, b: Date)
    requires ValidDate(a) && ValidDate(b)
    ensures AddDays(b, DateDiff(a, b)) == a
    ensures DateDiff(AddDays(b, DateDiff(a, b)), b) == DateDiff(a, b)
  {
    AddDaysOrdinal(b, DateDiff(a, b));
    OrdinalInjective(AddDays(b, DateDiff(a, b)), a);
  }

  /**
   * Adding at most 999 days to the day before a January 1 stays within
   * the year before and the two years after.
   */
  lemma AddDaysYearRange(y: int, days: nat)
    requires days <= 999
    ensures y - 1 <= AddDays(NewYear(y), days - 1).year <= y + 2
  {
    var r := AddDays(NewYear(y), days - 1);
    AddDaysOrdinal(NewYear(y), days - 1);
    YearStep(y - 1);
    YearStep(y);
    YearStep(y + 1);
    YearStep(y + 2);
    if r.year < y - 1 {
      OrdinalYearOrder(r, Date(y - 1, 1));
    } else if r.year > y + 2 {
      OrdinalYearOrder(Date(y + 3, 1), r);
    }
  }
}

=== FILE: decimal.dfy ===
/**
 * Decimal text of integers, as the table engine produces it when an integer
 * column is cast to a string, and reads it back when a digit string is cast
 * to an integer. Substring follows the engine's 1-based `substring(s, pos, len)`.
 */
module Decimal {

  predicate IsDigit(c: char) {
    '0' <= c <= '9'
  }

  predicate IsDigits(s: string) {
    forall k :: 0 <= k < |s| ==> IsDigit(s[k])
  }

  /** No leading zero, except for the single digit "0". */
  predicate IsCanonical(s: string) {
    |s| >= 1 && IsDigits(s) && (|s| > 1 ==> s[0] != '0')
  }

  function DigitChar(d: nat): (c: char)
    requires d < 10
    ensures IsDigit(c) && DigitValue(c) == d
  {
    ('0' as int + d) as char
  }

  function DigitValue(c: char): nat
    requires IsDigit(c)
  {
    c as int - '0' as int
  }

  function Pow10(k: nat): (p: nat)
    ensures p >= 1
  {
    if k == 0 then 1 else 10 * Pow10(k - 1)
  }

  /** The decimal text of a non-negative integer. */
  function Digits(n: nat): (s: string)
    ensures IsCanonical(s)
    ensures s[|s| - 1] == DigitChar(n % 10)
  {
    if n < 10 then [DigitChar(n)] else Digits(n / 10) + [DigitChar(n % 10)]
  }

  /** The text of any integer: a minus sign in front of the digits of a negative one. */
  function Show(i: int): (s: string)
    ensures |s| >= 1
    ensures forall k :: 1 <= k < |s| ==> IsDigit(s[k])
    ensures i >= 0 <==> IsDigit(s[0])
  {
    if i < 0 then "-" + Digits(-i) else Digits(i)
  }

  /** The value of a digit string (the engine's cast of digit text to an integer). */
  function ParseNat(s: string): (n: nat)
    requires IsDigits(s)
    ensures n < Pow10(|s|)
  {
    if s == [] then 0 else 10 * ParseNat(s[..|s| - 1]) + DigitValue(s[|s| - 1])
  }

  /** The engine's 1-based substring: at most `len` characters from position `pos`. */
  function Substring(s: string, pos: nat, len: nat): (r: string)
    requires pos >= 1
    ensures |r| <= len
    ensures pos - 1 + len <= |s| ==> |r| == len
    ensures forall k :: 0 <= k < |r| ==> pos - 1 + k < |s| && r[k] == s[pos - 1 + k]
  {
    var lo := if pos - 1 <= |s| then pos - 1 else |s|;
    var hi := if pos - 1 + len <= |s| then pos - 1 + len else |s|;
    s[lo..hi]
  }

  lemma {:induction false} ParseConcat(a: string, b: string)
    requires IsDigits(a) && IsDigits(b)
    ensures IsDigits(a + b)
    ensures ParseNat(a + b) == ParseNat(a) * Pow10(|b|) + ParseNat(b)
  {
    if b == [] {
      assert a + b == a;
    } else {
      var c := a + b;
      var init, last := b[..|b| - 1], b[|b| - 1];
      assert c[..|c| - 1] == a + init && c[|c| - 1] == last;
      ParseConcat(a, init);
      ShiftDigit(ParseNat(c), ParseNat(a + init), ParseNat(a), Pow10(|init|), ParseNat(init),
        DigitValue(last), ParseNat(b), Pow10(|b|));
    }
  }

  /** Appending a digit d to a number x * p + y multiplies the shift p by ten. */
  lemma ShiftDigit(n: nat, m: nat, x: nat, p: nat, y: nat, d: nat, n': nat, p': nat)
    requires n == 10 * m + d && m == x * p + y
    requires n' == 10 * y + d && p' == 10 * p
    ensures n == x * p' + n'
  {
    MulAssoc(x, p);
  }

  /** Reading back the text of n gives n. */
  lemma {:induction false} ParseDigits(n: nat)
    ensures ParseNat(Digits(n)) == n
  {
    if n >= 10 {
      var s := Digits(n);
      assert s[..|s| - 1] == Digits(n / 10);
      ParseDigits(n / 10);
    }
  }

  /** The length of the text of n is k exactly when n has k decimal places. */
  lemma {:induction false} DigitsLength(n: nat, k: nat)
    requires k >= 1
    ensures |Digits(n)| == k <==> (if k == 1 then n < 10 else Pow10(k - 1) <= n < Pow10(k))
  {
    if n >= 10 && k >= 2 {
      DigitsLength(n / 10, k - 1);
    } else if n >= 10 {
      // k == 1: the text of a number >= 10 has at least two characters
      assert |Digits(n)| == |Digits(n / 10)| + 1;
    } else if k >= 2 {
      PowMonotone(1, k - 1);
    }
  }

  lemma {:induction false} PowMonotone(i: nat, j: nat)
    requires i <= j
    ensures Pow10(i) <= Pow10(j)
  {
    if i < j {
      PowMonotone(i, j - 1);
    }
  }

  /** Canonical digit text is the text of its value. */
  lemma {:induction false} DigitsOfParse(s: string)
    requires IsCanonical(s)
    ensures Digits(ParseNat(s)) == s
  {
    var n := ParseNat(s);
    if |s| == 1 {
      assert n == DigitValue(s[0]);
    } else {
      var init := s[..|s| - 1];
      assert IsCanonical(init) by {
        assert init[0] == s[0];
      }
      DigitsOfParse(init);
      var last := DigitValue(s[|s| - 1]);
      assert n == 10 * ParseNat(init) + last;
      assert init != Digits(0) by {
        assert init[0] == s[0];
      }
      assert n / 10 == ParseNat(init) && n % 10 == last;
      assert DigitChar(last) == s[|s| - 1];
      assert s == init + [s[|s| - 1]];
    }
  }

  /**
   * Splitting the text of n after k characters splits n into its leading
   * and trailing decimal places.
   */
  lemma SplitDigits(n: nat, s: string, k: nat)
    requires s == Digits(n) && k <= |s|
    ensures IsDigits(s[..k]) && IsDigits(s[k..])
    ensures ParseNat(s[..k]) == n / Pow10(|s| - k)
    ensures ParseNat(s[k..]) == n % Pow10(|s| - k)
  {
    ParseDigits(n);
    SplitParse(s, k, n);
  }

  /** Splitting a digit string of value v after k characters splits v at the remaining |s| - k places. */
  lemma SplitParse(s: string, k: nat, v: nat)
    requires IsDigits(s) && k <= |s| && ParseNat(s) == v
    ensures IsDigits(s[..k]) && IsDigits(s[k..])
    ensures ParseNat(s[..k]) == v / Pow10(|s| - k)
    ensures ParseNat(s[k..]) == v % Pow10(|s| - k)
  {
    var a, b := s[..k], s[k..];
    assert s == a + b;
    ParseConcat(a, b);
    DivModUnique(v, Pow10(|b|), ParseNat(a), ParseNat(b));
  }

  lemma DivModUnique(n: nat, m: nat, q: nat, r: nat)
    requires m >= 1 && r < m && n == q * m + r
    ensures n / m == q && n % m == r
  {
    var q', r' := n / m, n % m;
    assert q' * m + r' == q * m + r;
    if q' > q {
      MulMonotone(q + 1, q', m);
    } else if q' < q {
      MulMonotone(q' + 1, q, m);
    }
  }

  lemma MulMonotone(a: nat, b: nat, m: nat)
    requires a <= b
    ensures a * m <= b * m
  {
  }

  lemma MulAssoc(x: nat, p: nat)
    ensures 10 * (x * p) == x * (10 * p)
  {
  }
}

=== FILE: flatten.dfy ===
/**
 * `CommonTransforms.flatten_nested`: recursive flattening of nested columns.
 * While a struct column exists, every struct column `nc` is replaced by one
 * column `nc_cc` per child field `cc` (the other columns come first, in their
 * order); once no struct column is left, every array column in turn is
 * replaced in place by its `explode_outer`; the recursion stops when only
 * leaf columns remain.
 */
module Flatten {
  import opened Tables

  // ---------------------------------------------------------------------
  // Classifying columns

  /** The two column categories the source looks for by type-name prefix. */
  datatype Category = StructCat | ArrayCat

  predicate InCategory(t: Type, c: Category) {
    match c
    case StructCat => t.Struct?
    case ArrayCat => t.Array?
  }

  predicate Increasing(P: seq<nat>) {
    forall a, b :: 0 <= a < b < |P| ==> P[a] < P[b]
  }

  /** The positions, among the first n columns, of the columns of category c, in schema order. */
  function Positions(s: Schema, n: nat, c: Category): (P: seq<nat>)
    requires n <= |s|
    ensures Increasing(P)
    ensures forall k :: 0 <= k < |P| ==> P[k] < n && InCategory(s[P[k]].ty, c)
  {
    if n == 0 then []
    else Positions(s, n - 1, c) + (if InCategory(s[n - 1].ty, c) then [n - 1] else [])
  }

  /** Every column of the category is listed. */
  lemma {:induction false} PositionsComplete(s: Schema, n: nat, c: Category)
    requires n <= |s|
    ensures forall i :: 0 <= i < n && InCategory(s[i].ty, c) ==> i in Positions(s, n, c)
  {
    if n > 0 {
      PositionsComplete(s, n - 1, c);
    }
  }

  /** No column of the category among the first n: nothing is listed. */
  lemma {:induction false} PositionsNone(s: Schema, n: nat, c: Category)
    requires n <= |s|
    requires forall i :: 0 <= i < n ==> !InCategory(s[i].ty, c)
    ensures Positions(s, n, c) == []
  {
    if n > 0 {
      PositionsNone(s, n - 1, c);
    }
  }

  /** `struct_cols`: the struct columns, in schema order. */
  function StructCols(s: Schema): seq<nat> {
    Positions(s, |s|, StructCat)
  }

  /** `array_cols`: the array columns, in schema order. */
  function ArrayCols(s: Schema): seq<nat> {
    Positions(s, |s|, ArrayCat)
  }

  predicate IsFlat(s: Schema) {
    forall i :: 0 <= i < |s| ==> s[i].ty.Leaf?
  }

  /** A schema with neither struct nor array columns has only leaf columns. */
  lemma NoNestedIsFlat(s: Schema)
    requires StructCols(s) == [] && ArrayCols(s) == []
    ensures IsFlat(s)
  {
    PositionsComplete(s, |s|, StructCat);
    PositionsComplete(s, |s|, ArrayCat);
  }

  // ---------------------------------------------------------------------
  // The struct pass: a projection by a list of column expressions

  /** A column expression of the projection: column i as it is, or field j of struct column i. */
  datatype Proj = Keep(col: nat) | ChildOf(col: nat, child: nat)

  predicate ValidProj(s: Schema, p: Proj) {
    match p
    case Keep(i) => i < |s|
    case ChildOf(i, j) => i < |s| && s[i].ty.Struct? && j < |s[i].ty.fields|
  }

  predicate ValidPlan(s: Schema, plan: seq<Proj>) {
    forall k :: 0 <= k < |plan| ==> ValidProj(s, plan[k])
  }

  /** The column a projection yields: the column itself, or the child field aliased `nc_cc`. */
  function ProjField(s: Schema, p: Proj): Field
    requires ValidProj(s, p)
  {
    match p
    case Keep(i) => s[i]
    case ChildOf(i, j) => Field(s[i].name + "_" + s[i].ty.fields[j].name, s[i].ty.fields[j].ty)
  }

  /** Field j of a struct value; every field of a null struct reads as null. */
  function Child(v: Value, j: nat): Value {
    if v.Rec? && j < |v.vals| then v.vals[j] else Null
  }

  function ProjValue(r: Row, p: Proj): Value
    requires p.col < |r|
  {
    match p
    case Keep(i) => r[i]
    case ChildOf(i, j) => Child(r[i], j)
  }

  function PlanSchema(s: Schema, plan: seq<Proj>): (out: Schema)
    requires ValidPlan(s, plan)
    ensures |out| == |plan|
  {
    seq(|plan|, k requires 0 <= k < |plan| => ProjField(s, plan[k]))
  }

  /** The engine's `select`: one output column per expression, rows kept one for one. */
  function Select(t: Table, plan: seq<Proj>): (r: Table)
    requires Shaped(t) && ValidPlan(t.schema, plan)
    ensures |r.schema| == |plan| && Shaped(r) && |r.rows| == |t.rows|
    ensures forall n, k :: 0 <= n < |t.rows| && 0 <= k < |plan| ==>
              r.rows[n][k] == ProjValue(t.rows[n], plan[k])
  {
    Table(PlanSchema(t.schema, plan),
          seq(|t.rows|, n requires 0 <= n < |t.rows| =>
            seq(|plan|, k requires 0 <= k < |plan| => ProjValue(t.rows[n], plan[k]))))
  }

  /** The non-struct columns among the first n, kept as they are. */
  function KeptPlan(s: Schema, n: nat): (plan: seq<Proj>)
    requires n <= |s|
    ensures ValidPlan(s, plan)
  {
    if n == 0 then []
    else KeptPlan(s, n - 1) + (if s[n - 1].ty.Struct? then [] else [Keep(n - 1)])
  }

  /** One expression per child field of struct column i, in field order. */
  function ChildrenOf(s: Schema, i: nat): (plan: seq<Proj>)
    requires i < |s| && s[i].ty.Struct?
    ensures |plan| == |s[i].ty.fields| && ValidPlan(s, plan)
  {
    seq(|s[i].ty.fields|, j requires 0 <= j < |s[i].ty.fields| => ChildOf(i, j))
  }

  predicate StructPositions(s: Schema, P: seq<nat>) {
    forall k :: 0 <= k < |P| ==> P[k] < |s| && s[P[k]].ty.Struct?
  }

  /** The child expressions of the struct columns P, column after column. */
  function ChildPlan(s: Schema, P: seq<nat>): (plan: seq<Proj>)
    requires StructPositions(s, P)
    ensures ValidPlan(s, plan)
  {
    if P == [] then []
    else ChildPlan(s, P[..|P| - 1]) + ChildrenOf(s, P[|P| - 1])
  }

  function StructPlan(s: Schema): (plan: seq<Proj>)
    ensures ValidPlan(s, plan)
  {
    KeptPlan(s, |s|) + ChildPlan(s, StructCols(s))
  }

  /** One struct pass: every struct column replaced by its prefixed child columns. */
  function StructPass(t: Table): (r: Table)
    requires Shaped(t)
    ensures Shaped(r) && |r.rows| == |t.rows|
  {
    Select(t, StructPlan(t.schema))
  }

  // ---------------------------------------------------------------------
  // The array pass: outer explodes, one array column after the other

  /** The values an outer explode yields for v: its elements, or a single null for an empty or null array. */
  function Elements(v: Value): (es: seq<Value>)
    ensures |es| >= 1
    ensures v.Arr? && |v.elems| > 0 ==> es == v.elems
    ensures !(v.Arr? && |v.elems| > 0) ==> es == [Null]
  {
    if v.Arr? && |v.elems| > 0 then v.elems else [Null]
  }

  /** `explode_outer` of column i on one row: one row per element, every other column copied. */
  function ExplodeRow(r: Row, i: nat): (rs: seq<Row>)
    requires i < |r|
    ensures |rs| == |Elements(r[i])|
    ensures forall k :: 0 <= k < |rs| ==> |rs[k]| == |r| && rs[k][i] == Elements(r[i])[k]
    ensures forall k, c :: 0 <= k < |rs| && 0 <= c < |r| && c != i ==> rs[k][c] == r[c]
  {
    seq(|Elements(r[i])|, k requires 0 <= k < |Elements(r[i])| => r[i := Elements(r[i])[k]])
  }

  predicate RowsOfWidth(rows: seq<Row>, w: nat) {
    forall k :: 0 <= k < |rows| ==> |rows[k]| == w
  }

  function ExplodeRows(rows: seq<Row>, i: nat, w: nat): (out: seq<Row>)
    requires i < w && RowsOfWidth(rows, w)
    ensures RowsOfWidth(out, w)
  {
    if rows == [] then [] else ExplodeRow(rows[0], i) + ExplodeRows(rows[1..], i, w)
  }

  /** `withColumn(nc, explode_outer(nc))`: the column keeps its place and takes the element type. */
  function Explode(t: Table, i: nat): (r: Table)
    requires Shaped(t) && i < |t.schema| && t.schema[i].ty.Array?
    ensures Shaped(r) && |r.schema| == |t.schema|
    ensures r.schema == t.schema[i := Field(t.schema[i].name, t.schema[i].ty.elem)]
  {
    Table(t.schema[i := Field(t.schema[i].name, t.schema[i].ty.elem)],
          ExplodeRows(t.rows, i, |t.schema|))
  }

  predicate ArrayPositions(s: Schema, P: seq<nat>) {
    Increasing(P) && forall k :: 0 <= k < |P| ==> P[k] < |s| && s[P[k]].ty.Array?
  }

  /** The array columns P exploded one after another, each on the table the previous one produced. */
  function ExplodeAll(t: Table, P: seq<nat>): (r: Table)
    requires Shaped(t) && ArrayPositions(t.schema, P)
    ensures Shaped(r) && |r.schema| == |t.schema|
    decreases |P|
  {
    if P == [] then t
    else ExplodeAll(Explode(t, P[0]), P[1..])
  }

  function ArrayPass(t: Table): (r: Table)
    requires Shaped(t)
    ensures Shaped(r)
  {
    ExplodeAll(t, ArrayCols(t.schema))
  }

  // ---------------------------------------------------------------------
  // The measure: how many struct and array constructors the schema holds

  function TypeSize(t: Type): nat
    decreases t, 1
  {
    match t
    case Leaf(_) => 0
    case Struct(fs) => 1 + FieldsSize(fs)
    case Array(e) => 1 + TypeSize(e)
  }

  function FieldsSize(fs: seq<Field>): nat
    decreases fs, 0
  {
    if fs == [] then 0 else TypeSize(fs[0].ty) + FieldsSize(fs[1..])
  }

  lemma {:induction false} FieldsSizeConcat(a: seq<Field>, b: seq<Field>)
    ensures FieldsSize(a + b) == FieldsSize(a) + FieldsSize(b)
  {
    if a == [] {
      assert a + b == b;
    } else {
      assert (a + b)[0] == a[0];
      assert (a + b)[1..] == a[1..] + b;
      FieldsSizeConcat(a[1..], b);
    }
  }

  lemma {:induction false} FieldsSizeSameTypes(a: seq<Field>, b: seq<Field>)
    requires |a| == |b| && forall k :: 0 <= k < |a| ==> a[k].ty == b[k].ty
    ensures FieldsSize(a) == FieldsSize(b)
  {
    if a != [] {
      FieldsSizeSameTypes(a[1..], b[1..]);
    }
  }

  lemma PlanSchemaConcat(s: Schema, a: seq<Proj>, b: seq<Proj>)
    requires ValidPlan(s, a) && ValidPlan(s, b)
    ensures ValidPlan(s, a + b)
    ensures PlanSchema(s, a + b) == PlanSchema(s, a) + PlanSchema(s, b)
  {
  }

  /** Over the first n columns, the struct pass removes exactly one constructor per struct column. */
  lemma {:induction false} StructPassSizePrefix(s: Schema, n: nat)
    requires n <= |s|
    ensures KeptSize(s, n) + ChildSize(s, n) + |Positions(s, n, StructCat)| == FieldsSize(s[..n])
  {
    if n > 0 {
      StructPassSizePrefix(s, n - 1);
      FieldsSizeSnoc(s, n);
      if s[n - 1].ty.Struct? {
        StructStepSize(s, n);
      } else {
        KeptStepSize(s, n);
      }
    }
  }

  lemma FieldsSizeSnoc(s: Schema, n: nat)
    requires 0 < n <= |s|
    ensures FieldsSize(s[..n]) == FieldsSize(s[..n - 1]) + TypeSize(s[n - 1].ty)
  {
    var f := s[n - 1];
    assert s[..n] == s[..n - 1] + [f];
    FieldsSizeConcat(s[..n - 1], [f]);
    assert FieldsSize([f]) == TypeSize(f.ty);
  }

  function KeptSize(s: Schema, n: nat): nat
    requires n <= |s|
  {
    FieldsSize(PlanSchema(s, KeptPlan(s, n)))
  }

  function ChildSize(s: Schema, n: nat): nat
    requires n <= |s|
  {
    FieldsSize(PlanSchema(s, ChildPlan(s, Positions(s, n, StructCat))))
  }

  lemma StructStepSize(s: Schema, n: nat)
    requires 0 < n <= |s| && s[n - 1].ty.Struct?
    ensures KeptSize(s, n) == KeptSize(s, n - 1)
    ensures |Positions(s, n, StructCat)| == |Positions(s, n - 1, StructCat)| + 1
    ensures ChildSize(s, n) == ChildSize(s, n - 1) + TypeSize(s[n - 1].ty) - 1
  {
    var f := s[n - 1];
    assert KeptPlan(s, n) == KeptPlan(s, n - 1) + [];
    assert KeptPlan(s, n - 1) + [] == KeptPlan(s, n - 1);
    var P := Positions(s, n - 1, StructCat);
    var P' := P + [n - 1];
    assert P'[..|P'| - 1] == P;
    assert Positions(s, n, StructCat) == P';
    var a, b := ChildPlan(s, P), ChildrenOf(s, n - 1);
    assert ChildPlan(s, P') == a + b;
    PlanSchemaConcat(s, a, b);
    FieldsSizeConcat(PlanSchema(s, a), PlanSchema(s, b));
    FieldsSizeSameTypes(PlanSchema(s, b), f.ty.fields);
  }

  lemma KeptStepSize(s: Schema, n: nat)
    requires 0 < n <= |s| && !s[n - 1].ty.Struct?
    ensures KeptSize(s, n) == KeptSize(s, n - 1) + TypeSize(s[n - 1].ty)
    ensures Positions(s, n, StructCat) == Positions(s, n - 1, StructCat)
  {
    var f := s[n - 1];
    PlanSchemaConcat(s, KeptPlan(s, n - 1), [Keep(n - 1)]);
    FieldsSizeConcat(PlanSchema(s, KeptPlan(s, n - 1)), [f]);
    assert PlanSchema(s, [Keep(n - 1)]) == [f];
    assert FieldsSize([f]) == TypeSize(f.ty);
  }

  /** A struct pass removes one constructor per struct column, so the measure drops when one exists. */
  lemma StructPassShrinks(t: Table)
    requires Shaped(t)
    ensures FieldsSize(StructPass(t).schema) == FieldsSize(t.schema) - |StructCols(t.schema)|
  {
    var s := t.schema;
    StructPassSizePrefix(s, |s|);
    assert KeptSize(s, |s|) + ChildSize(s, |s|) + |StructCols(s)| == FieldsSize(s[..|s|]);
    assert s[..|s|] == s;
    PlanSchemaConcat(s, KeptPlan(s, |s|), ChildPlan(s, StructCols(s)));
    FieldsSizeConcat(PlanSchema(s, KeptPlan(s, |s|)), PlanSchema(s, ChildPlan(s, StructCols(s))));
  }

  /** Exploding one array column removes its Array constructor. */
  lemma ExplodeShrinks(t: Table, i: nat)
    requires Shaped(t) && i < |t.schema| && t.schema[i].ty.Array?
    ensures FieldsSize(Explode(t, i).schema) == FieldsSize(t.schema) - 1
  {
    var s, s' := t.schema, Explode(t, i).schema;
    assert s == s[..i] + [s[i]] + s[i + 1..];
    assert s' == s[..i] + [s'[i]] + s[i + 1..];
    FieldsSizeConcat(s[..i] + [s[i]], s[i + 1..]);
    FieldsSizeConcat(s[..i], [s[i]]);
    FieldsSizeConcat(s[..i] + [s'[i]], s[i + 1..]);
    FieldsSizeConcat(s[..i], [s'[i]]);
  }

  lemma {:induction false} ExplodeAllShrinks(t: Table, P: seq<nat>)
    requires Shaped(t) && ArrayPositions(t.schema, P)
    ensures FieldsSize(ExplodeAll(t, P).schema) == FieldsSize(t.schema) - |P|
    decreases |P|
  {
    if P != [] {
      ExplodeShrinks(t, P[0]);
      ExplodeAllShrinks(Explode(t, P[0]), P[1..]);
    }
  }

  /** An array pass removes one constructor per array column. */
  lemma ArrayPassShrinks(t: Table)
    requires Shaped(t)
    ensures FieldsSize(ArrayPass(t).schema) == FieldsSize(t.schema) - |ArrayCols(t.schema)|
  {
    ExplodeAllShrinks(t, ArrayCols(t.schema));
  }

  // ---------------------------------------------------------------------
  // flatten_nested

  /** Struct passes while a struct column exists, then array passes, until only leaves remain. */
  function Flatten(t: Table): (r: Table)
    requires Shaped(t)
    ensures Shaped(r) && IsFlat(r.schema)
    decreases FieldsSize(t.schema)
  {
    if StructCols(t.schema) != [] then
      StructPassShrinks(t);
      Flatten(StructPass(t))
    else if ArrayCols(t.schema) != [] then
      ArrayPassShrinks(t);
      Flatten(ArrayPass(t))
    else
      NoNestedIsFlat(t.schema);
      t
  }

  /** The struct passes alone, repeated while a struct column exists. */
  function StructClosure(t: Table): (r: Table)
    requires Shaped(t)
    ensures Shaped(r)
    decreases FieldsSize(t.schema)
  {
    if StructCols(t.schema) != [] then
      StructPassShrinks(t);
      StructClosure(StructPass(t))
    else
      t
  }

  /** A table that is already flat comes back unchanged. */
  lemma FlatUnchanged(t: Table)
    requires Shaped(t) && IsFlat(t.schema)
    ensures Flatten(t) == t
  {
    PositionsNone(t.schema, |t.schema|, StructCat);
    PositionsNone(t.schema, |t.schema|, ArrayCat);
  }

  /** Flattening twice is flattening once. */
  lemma FlattenIdempotent(t: Table)
    requires Shaped(t)
    ensures Flatten(Flatten(t)) == Flatten(t)
  {
    FlatUnchanged(Flatten(t));
  }

  /**
   * Struct expansion runs to its own fixpoint before any array is exploded:
   * flattening is flattening the struct closure, which has no struct column
   * and still has exactly the input's rows.
   */
  lemma {:induction false} StructsBeforeArrays(t: Table)
    requires Shaped(t)
    ensures StructCols(StructClosure(t).schema) == []
    ensures |StructClosure(t).rows| == |t.rows|
    ensures Flatten(StructClosure(t)) == Flatten(t)
    decreases FieldsSize(t.schema)
  {
    if StructCols(t.schema) != [] {
      StructPassShrinks(t);
      StructsBeforeArrays(StructPass(t));
    }
  }

  // ---------------------------------------------------------------------
  // Layout of a struct pass

  /** How many of the first n columns are not structs. */
  function NonStructBefore(s: Schema, n: nat): nat
    requires n <= |s|
  {
    if n == 0 then 0 else NonStructBefore(s, n - 1) + (if s[n - 1].ty.Struct? then 0 else 1)
  }

  /** How many child fields the struct columns among the first n have together. */
  function ChildrenBefore(s: Schema, n: nat): nat
    requires n <= |s|
  {
    if n == 0 then 0
    else ChildrenBefore(s, n - 1) + (if s[n - 1].ty.Struct? then |s[n - 1].ty.fields| else 0)
  }

  lemma {:induction false} KeptPlanLength(s: Schema, n: nat)
    requires n <= |s|
    ensures |KeptPlan(s, n)| == NonStructBefore(s, n)
  {
    if n > 0 {
      KeptPlanLength(s, n - 1);
    }
  }

  /** Non-struct column i is kept at its rank among the non-struct columns. */
  lemma {:induction false} KeptPlanAt(s: Schema, n: nat, i: nat)
    requires i < n <= |s| && !s[i].ty.Struct?
    ensures NonStructBefore(s, i) < |KeptPlan(s, n)|
    ensures KeptPlan(s, n)[NonStructBefore(s, i)] == Keep(i)
  {
    var prev := KeptPlan(s, n - 1);
    var last := if s[n - 1].ty.Struct? then [] else [Keep(n - 1)];
    assert KeptPlan(s, n) == prev + last;
    KeptPlanLength(s, n - 1);
    if i < n - 1 {
      KeptPlanAt(s, n - 1, i);
      assert (prev + last)[NonStructBefore(s, i)] == prev[NonStructBefore(s, i)];
    }
  }

  /** The child expressions of the struct columns among the first n columns. */
  function ChildPlanUpTo(s: Schema, n: nat): (plan: seq<Proj>)
    requires n <= |s|
  {
    if n == 0 then []
    else ChildPlanUpTo(s, n - 1) + (if s[n - 1].ty.Struct? then ChildrenOf(s, n - 1) else [])
  }

  lemma {:induction false} ChildPlanUpToPositions(s: Schema, n: nat)
    requires n <= |s|
    ensures ChildPlan(s, Positions(s, n, StructCat)) == ChildPlanUpTo(s, n)
  {
    if n > 0 {
      ChildPlanUpToPositions(s, n - 1);
      ChildPlanStep(s, n);
    }
  }

  /** Adding a column to the prefix appends that column's children, if it is a struct. */
  lemma ChildPlanStep(s: Schema, n: nat)
    requires 0 < n <= |s|
    ensures ChildPlan(s, Positions(s, n, StructCat)) ==
            ChildPlan(s, Positions(s, n - 1, StructCat)) + (if s[n - 1].ty.Struct? then ChildrenOf(s, n - 1) else [])
  {
    var P := Positions(s, n - 1, StructCat);
    if s[n - 1].ty.Struct? {
      var P' := P + [n - 1];
      assert Positions(s, n, StructCat) == P';
      assert ChildPlan(s, P') == ChildPlan(s, P) + ChildrenOf(s, n - 1) by {
        assert P'[..|P'| - 1] == P;
      }
    } else {
      assert Positions(s, n, StructCat) == P;
      assert ChildPlan(s, P) + [] == ChildPlan(s, P);
    }
  }

  lemma {:induction false} ChildPlanLength(s: Schema, n: nat)
    requires n <= |s|
    ensures |ChildPlanUpTo(s, n)| == ChildrenBefore(s, n)
  {
    if n > 0 {
      ChildPlanLength(s, n - 1);
    }
  }

  /** Child j of struct column i comes after the children of the struct columns before i. */
  lemma {:induction false} ChildPlanAt(s: Schema, n: nat, i: nat, j: nat)
    requires i < n <= |s| && s[i].ty.Struct? && j < |s[i].ty.fields|
    ensures ChildrenBefore(s, i) + j < |ChildPlanUpTo(s, n)|
    ensures ChildPlanUpTo(s, n)[ChildrenBefore(s, i) + j] == ChildOf(i, j)
  {
    var prev := ChildPlanUpTo(s, n - 1);
    var last := if s[n - 1].ty.Struct? then ChildrenOf(s, n - 1) else [];
    assert ChildPlanUpTo(s, n) == prev + last;
    ChildPlanLength(s, n - 1);
    var k := ChildrenBefore(s, i) + j;
    if i < n - 1 {
      ChildPlanAt(s, n - 1, i, j);
      assert (prev + last)[k] == prev[k];
    } else {
      assert (prev + last)[k] == last[j];
    }
  }

  /** The output of a struct pass has one column per non-struct column and one per child field. */
  lemma StructPassWidth(t: Table)
    requires Shaped(t)
    ensures |StructPass(t).schema| == NonStructBefore(t.schema, |t.schema|) + ChildrenBefore(t.schema, |t.schema|)
  {
    KeptPlanLength(t.schema, |t.schema|);
    ChildPlanLength(t.schema, |t.schema|);
    ChildPlanUpToPositions(t.schema, |t.schema|);
  }

  /**
   * A non-struct column comes first, at its rank among the non-struct
   * columns, with its name, type and every row's value unchanged.
   */
  lemma StructPassKeeps(t: Table, i: nat)
    requires Shaped(t) && i < |t.schema| && !t.schema[i].ty.Struct?
    ensures NonStructBefore(t.schema, i) < |StructPass(t).schema|
    ensures StructPass(t).schema[NonStructBefore(t.schema, i)] == t.schema[i]
    ensures forall n :: 0 <= n < |t.rows| ==> StructPass(t).rows[n][NonStructBefore(t.schema, i)] == t.rows[n][i]
  {
    var s := t.schema;
    KeptPlanAt(s, |s|, i);
    KeptPlanLength(s, |s|);
    var p := NonStructBefore(s, i);
    assert StructPlan(s)[p] == Keep(i);
  }

  /**
   * Child j of struct column i comes after all the non-struct columns and
   * after the children of earlier struct columns, named `nc_cc` with the
   * child's type, and carries the child's value in every row.
   */
  lemma StructPassExpands(t: Table, i: nat, j: nat)
    requires Shaped(t) && i < |t.schema| && t.schema[i].ty.Struct? && j < |t.schema[i].ty.fields|
    ensures var p := NonStructBefore(t.schema, |t.schema|) + ChildrenBefore(t.schema, i) + j;
            var cc := t.schema[i].ty.fields[j];
            p < |StructPass(t).schema| &&
            StructPass(t).schema[p] == Field(t.schema[i].name + "_" + cc.name, cc.ty) &&
            forall n :: 0 <= n < |t.rows| ==> StructPass(t).rows[n][p] == Child(t.rows[n][i], j)
  {
    var s := t.schema;
    StructPlanChildAt(s, i, j);
    var p := NonStructBefore(s, |s|) + ChildrenBefore(s, i) + j;
    assert PlanSchema(s, StructPlan(s))[p] == ProjField(s, ChildOf(i, j));
  }

  /** Where the struct pass's projection list holds child j of struct column i. */
  lemma StructPlanChildAt(s: Schema, i: nat, j: nat)
    requires i < |s| && s[i].ty.Struct? && j < |s[i].ty.fields|
    ensures NonStructBefore(s, |s|) + ChildrenBefore(s, i) + j < |StructPlan(s)|
    ensures StructPlan(s)[NonStructBefore(s, |s|) + ChildrenBefore(s, i) + j] == ChildOf(i, j)
  {
    KeptPlanLength(s, |s|);
    ChildPlanAt(s, |s|, i, j);
    ChildPlanUpToPositions(s, |s|);
    var kept, children := KeptPlan(s, |s|), ChildPlan(s, StructCols(s));
    var p := NonStructBefore(s, |s|) + ChildrenBefore(s, i) + j;
    assert (kept + children)[p] == children[ChildrenBefore(s, i) + j];
  }

  // ---------------------------------------------------------------------
  // Column order: a struct column before or after its neighbour

  /** Entries k and k + 1 exchanged. */
  function SwapAt<T>(s: seq<T>, k: nat): (r: seq<T>)
    requires k + 1 < |s|
    ensures |r| == |s|
  {
    s[k := s[k + 1]][k + 1 := s[k]]
  }

  /** Where entry i goes when entries k and k + 1 are exchanged. */
  function Swapped(k: nat, i: nat): nat {
    if i == k then k + 1 else if i == k + 1 then k else i
  }

  /** Entry i of a sequence is entry Swapped(k, i) once k and k + 1 are exchanged. */
  lemma SwapAtSwapped<T>(s: seq<T>, k: nat)
    requires k + 1 < |s|
    ensures forall i :: 0 <= i < |s| ==> Swapped(k, i) < |s| && SwapAt(s, k)[Swapped(k, i)] == s[i]
  {
  }

  /** Columns k and k + 1 exchanged, in the schema and in every row. */
  function SwapColumns(t: Table, k: nat): (r: Table)
    requires Shaped(t) && k + 1 < |t.schema|
    ensures Shaped(r) && |r.rows| == |t.rows| && r.schema == SwapAt(t.schema, k)
  {
    Table(SwapAt(t.schema, k), seq(|t.rows|, n requires 0 <= n < |t.rows| => SwapAt(t.rows[n], k)))
  }

  function RenameProj(p: Proj, k: nat): Proj {
    match p
    case Keep(i) => Keep(Swapped(k, i))
    case ChildOf(i, j) => ChildOf(Swapped(k, i), j)
  }

  /** The same expressions, reading each column where the exchange has put it. */
  function RenamePlan(plan: seq<Proj>, k: nat): (r: seq<Proj>)
    ensures |r| == |plan|
  {
    seq(|plan|, m requires 0 <= m < |plan| => RenameProj(plan[m], k))
  }

  function RenamePositions(P: seq<nat>, k: nat): (r: seq<nat>)
    ensures |r| == |P|
  {
    seq(|P|, m requires 0 <= m < |P| => Swapped(k, P[m]))
  }

  lemma RenamePlanAppend(a: seq<Proj>, b: seq<Proj>, k: nat)
    ensures RenamePlan(a + b, k) == RenamePlan(a, k) + RenamePlan(b, k)
  {
    assert forall m :: 0 <= m < |a + b| ==> RenamePlan(a + b, k)[m] == (RenamePlan(a, k) + RenamePlan(b, k))[m];
  }

  lemma RenamePositionsAppend(a: seq<nat>, b: seq<nat>, k: nat)
    ensures RenamePositions(a + b, k) == RenamePositions(a, k) + RenamePositions(b, k)
  {
    assert forall m :: 0 <= m < |a + b| ==> RenamePositions(a + b, k)[m] == (RenamePositions(a, k) + RenamePositions(b, k))[m];
  }

  /**
   * With a struct column at k and a non-struct column at k + 1, exchanging
   * them renames the kept expressions and nothing else: the non-struct
   * columns keep their order.
   */
  lemma {:induction false} KeptPlanSwap(s: Schema, k: nat, n: nat)
    requires k + 1 < |s| && s[k].ty.Struct? && !s[k + 1].ty.Struct?
    requires n <= |s| && n != k + 1
    ensures KeptPlan(SwapAt(s, k), n) == RenamePlan(KeptPlan(s, n), k)
  {
    if n > 0 {
      var m := if n == k + 2 then k else n - 1;
      KeptPlanSwap(s, k, m);
      if n == k + 2 {
        KeptPlanSwapPair(s, k);
      } else {
        KeptPlanSwapStep(s, k, n);
      }
    }
  }

  /** Past the exchanged pair, the kept lists of both schemas end with the same (renamed) column. */
  lemma KeptPlanSwapPair(s: Schema, k: nat)
    requires k + 1 < |s| && s[k].ty.Struct? && !s[k + 1].ty.Struct?
    requires KeptPlan(SwapAt(s, k), k) == RenamePlan(KeptPlan(s, k), k)
    ensures KeptPlan(SwapAt(s, k), k + 2) == RenamePlan(KeptPlan(s, k + 2), k)
  {
    var s' := SwapAt(s, k);
    assert KeptPlan(s', k + 2) == KeptPlan(s', k) + [Keep(k)] + [];
    assert KeptPlan(s, k + 2) == KeptPlan(s, k) + [] + [Keep(k + 1)];
    RenamePlanAppend(KeptPlan(s, k), [Keep(k + 1)], k);
  }

  /** Away from the exchanged pair, both kept lists grow by the same column. */
  lemma KeptPlanSwapStep(s: Schema, k: nat, n: nat)
    requires k + 1 < |s| && 0 < n <= |s| && n != k + 1 && n != k + 2
    requires KeptPlan(SwapAt(s, k), n - 1) == RenamePlan(KeptPlan(s, n - 1), k)
    ensures KeptPlan(SwapAt(s, k), n) == RenamePlan(KeptPlan(s, n), k)
  {
    var s' := SwapAt(s, k);
    assert s'[n - 1] == s[n - 1];
    var x := if s[n - 1].ty.Struct? then [] else [Keep(n - 1)];
    assert KeptPlan(s, n) == KeptPlan(s, n - 1) + x;
    RenamePlanAppend(KeptPlan(s, n - 1), x, k);
    assert RenamePlan(x, k) == x;
  }

  /** The same exchange keeps the struct columns in their order, at renamed positions. */
  lemma {:induction false} StructColsSwap(s: Schema, k: nat, n: nat)
    requires k + 1 < |s| && s[k].ty.Struct? && !s[k + 1].ty.Struct?
    requires n <= |s| && n != k + 1
    ensures Positions(SwapAt(s, k), n, StructCat) == RenamePositions(Positions(s, n, StructCat), k)
  {
    if n > 0 {
      var m := if n == k + 2 then k else n - 1;
      StructColsSwap(s, k, m);
      if n == k + 2 {
        StructColsSwapPair(s, k);
      } else {
        StructColsSwapStep(s, k, n);
      }
    }
  }

  lemma StructColsSwapPair(s: Schema, k: nat)
    requires k + 1 < |s| && s[k].ty.Struct? && !s[k + 1].ty.Struct?
    requires Positions(SwapAt(s, k), k, StructCat) == RenamePositions(Positions(s, k, StructCat), k)
    ensures Positions(SwapAt(s, k), k + 2, StructCat) == RenamePositions(Positions(s, k + 2, StructCat), k)
  {
    var s' := SwapAt(s, k);
    assert Positions(s', k + 2, StructCat) == Positions(s', k, StructCat) + [] + [k + 1];
    assert Positions(s, k + 2, StructCat) == Positions(s, k, StructCat) + [k] + [];
    RenamePositionsAppend(Positions(s, k, StructCat), [k], k);
  }

  lemma StructColsSwapStep(s: Schema, k: nat, n: nat)
    requires k + 1 < |s| && 0 < n <= |s| && n != k + 1 && n != k + 2
    requires Positions(SwapAt(s, k), n - 1, StructCat) == RenamePositions(Positions(s, n - 1, StructCat), k)
    ensures Positions(SwapAt(s, k), n, StructCat) == RenamePositions(Positions(s, n, StructCat), k)
  {
    var s' := SwapAt(s, k);
    assert s'[n - 1] == s[n - 1];
    var x := if s[n - 1].ty.Struct? then [n - 1] else [];
    assert Positions(s, n, StructCat) == Positions(s, n - 1, StructCat) + x;
    RenamePositionsAppend(Positions(s, n - 1, StructCat), x, k);
    assert RenamePositions(x, k) == x;
  }

  /** The children of renamed struct columns are the renamed children. */
  lemma {:induction false} ChildPlanSwap(s: Schema, k: nat, P: seq<nat>)
    requires k + 1 < |s| && StructPositions(s, P)
    ensures StructPositions(SwapAt(s, k), RenamePositions(P, k))
    ensures ChildPlan(SwapAt(s, k), RenamePositions(P, k)) == RenamePlan(ChildPlan(s, P), k)
  {
    var s', Q := SwapAt(s, k), RenamePositions(P, k);
    SwapAtSwapped(s, k);
    if P != [] {
      var init, i := P[..|P| - 1], P[|P| - 1];
      assert Q[..|Q| - 1] == RenamePositions(init, k);
      ChildPlanSwap(s, k, init);
      assert ChildrenOf(s', Swapped(k, i)) == RenamePlan(ChildrenOf(s, i), k);
      RenamePlanAppend(ChildPlan(s, init), ChildrenOf(s, i), k);
    }
  }

  lemma StructPlanSwap(s: Schema, k: nat)
    requires k + 1 < |s| && s[k].ty.Struct? && !s[k + 1].ty.Struct?
    ensures StructPlan(SwapAt(s, k)) == RenamePlan(StructPlan(s), k)
  {
    KeptPlanSwap(s, k, |s|);
    StructColsSwap(s, k, |s|);
    ChildPlanSwap(s, k, StructCols(s));
    RenamePlanAppend(KeptPlan(s, |s|), ChildPlan(s, StructCols(s)), k);
  }

  /** Selecting renamed expressions from the exchanged table selects the same columns and values. */
  lemma SelectSwap(t: Table, k: nat, plan: seq<Proj>)
    requires Shaped(t) && k + 1 < |t.schema| && ValidPlan(t.schema, plan)
    ensures ValidPlan(SwapColumns(t, k).schema, RenamePlan(plan, k))
    ensures Select(SwapColumns(t, k), RenamePlan(plan, k)) == Select(t, plan)
  {
    var t' := SwapColumns(t, k);
    var plan' := RenamePlan(plan, k);
    SwapAtSwapped(t.schema, k);
    assert ValidPlan(t'.schema, plan');
    var a, b := Select(t', plan'), Select(t, plan);
    forall m | 0 <= m < |plan|
      ensures a.schema[m] == b.schema[m]
    {
      assert ProjField(t'.schema, plan'[m]) == ProjField(t.schema, plan[m]);
    }
    forall n | 0 <= n < |t.rows|
      ensures a.rows[n] == b.rows[n]
    {
      SwapAtSwapped(t.rows[n], k);
      assert t'.rows[n] == SwapAt(t.rows[n], k);
      assert forall m :: 0 <= m < |plan| ==> a.rows[n][m] == b.rows[n][m];
    }
  }

  /**
   * A struct column and the non-struct column after it may come in either
   * order: the struct pass, and so the whole flattening, gives the same table.
   */
  lemma StructLeafSwap(t: Table, k: nat)
    requires Shaped(t) && k + 1 < |t.schema|
    requires t.schema[k].ty.Struct? && !t.schema[k + 1].ty.Struct?
    ensures StructPass(SwapColumns(t, k)) == StructPass(t)
    ensures Flatten(SwapColumns(t, k)) == Flatten(t)
  {
    var s := t.schema;
    var t' := SwapColumns(t, k);
    StructPlanSwap(s, k);
    SelectSwap(t, k, StructPlan(s));
    PositionsComplete(s, |s|, StructCat);
    PositionsComplete(t'.schema, |s|, StructCat);
    assert k in StructCols(s) && k + 1 in StructCols(t'.schema);
  }

  // ---------------------------------------------------------------------
  // Typing: every pass keeps the rows conforming to the schema

  lemma StructPassWellTyped(t: Table)
    requires Shaped(t) && WellTyped(t)
    ensures WellTyped(StructPass(t))
  {
    var s, plan, out := t.schema, StructPlan(t.schema), StructPass(t);
    forall n, k | 0 <= n < |t.rows| && 0 <= k < |plan|
      ensures Conforms(out.rows[n][k], out.schema[k].ty)
    {
      var r := t.rows[n];
      assert RowConforms(s, r);
      match plan[k]
      case Keep(i) =>
      case ChildOf(i, j) =>
        assert Conforms(r[i], s[i].ty);
    }
    forall n | 0 <= n < |out.rows|
      ensures RowConforms(out.schema, out.rows[n])
    {
    }
  }

  lemma {:induction false} ExplodeRowsWellTyped(s: Schema, rows: seq<Row>, i: nat)
    requires i < |s| && s[i].ty.Array? && RowsOfWidth(rows, |s|)
    requires forall k :: 0 <= k < |rows| ==> RowConforms(s, rows[k])
    ensures var s' := s[i := Field(s[i].name, s[i].ty.elem)];
            forall k :: 0 <= k < |ExplodeRows(rows, i, |s|)| ==> RowConforms(s', ExplodeRows(rows, i, |s|)[k])
  {
    if rows != [] {
      ExplodeRowsWellTyped(s, rows[1..], i);
      var r := rows[0];
      assert RowConforms(s, r);
      assert Conforms(r[i], s[i].ty);
      var head := ExplodeRow(r, i);
      var s' := s[i := Field(s[i].name, s[i].ty.elem)];
      forall k | 0 <= k < |head|
        ensures RowConforms(s', head[k])
      {
        assert Conforms(Elements(r[i])[k], s[i].ty.elem);
      }
    }
  }

  lemma {:induction false} ExplodeAllWellTyped(t: Table, P: seq<nat>)
    requires Shaped(t) && ArrayPositions(t.schema, P) && WellTyped(t)
    ensures WellTyped(ExplodeAll(t, P))
    decreases |P|
  {
    if P != [] {
      ExplodeRowsWellTyped(t.schema, t.rows, P[0]);
      ExplodeAllWellTyped(Explode(t, P[0]), P[1..]);
    }
  }

  /** Flattening keeps every value conforming to its column's type. */
  lemma {:induction false} FlattenWellTyped(t: Table)
    requires Shaped(t) && WellTyped(t)
    ensures WellTyped(Flatten(t))
    decreases FieldsSize(t.schema)
  {
    if StructCols(t.schema) != [] {
      StructPassShrinks(t);
      StructPassWellTyped(t);
      FlattenWellTyped(StructPass(t));
    } else if ArrayCols(t.schema) != [] {
      ArrayPassShrinks(t);
      ExplodeAllWellTyped(t, ArrayCols(t.schema));
      FlattenWellTyped(ArrayPass(t));
    }
  }

  // ---------------------------------------------------------------------
  // Row counts of the array pass

  /** Rows an outer explode makes of a value: max(1, m) for an array of m elements, 1 for null. */
  function Fan(v: Value): (n: nat)
    ensures v.Arr? && |v.elems| > 0 ==> n == |v.elems|
    ensures v.Arr? && |v.elems| == 0 ==> n == 1
    ensures !v.Arr? ==> n == 1
  {
    |Elements(v)|
  }

  /** The product of the fans of the columns P of row r. */
  function FanProduct(r: Row, P: seq<nat>): nat
    requires forall k :: 0 <= k < |P| ==> P[k] < |r|
  {
    if P == [] then 1 else Fan(r[P[0]]) * FanProduct(r, P[1..])
  }

  /** A row whose array is empty or null still yields exactly one row, with that column null. */
  lemma OuterKeepsRow(r: Row, i: nat)
    requires i < |r| && (r[i] == Null || r[i] == Arr([]))
    ensures ExplodeRows([r], i, |r|) == [r[i := Null]]
  {
    assert ExplodeRows([r], i, |r|) == ExplodeRow(r, i) + ExplodeRows([], i, |r|);
  }

  function FanSum(rows: seq<Row>, i: nat): (n: nat)
    requires forall k :: 0 <= k < |rows| ==> i < |rows[k]|
  {
    if rows == [] then 0 else Fan(rows[0][i]) + FanSum(rows[1..], i)
  }

  /** Exploding one column makes Fan rows of every row, so no row is ever dropped. */
  lemma {:induction false} ExplodeRowsCount(rows: seq<Row>, i: nat, w: nat)
    requires i < w && RowsOfWidth(rows, w)
    ensures |ExplodeRows(rows, i, w)| == FanSum(rows, i) >= |rows|
  {
    if rows != [] {
      ExplodeRowsCount(rows[1..], i, w);
    }
  }

  lemma {:induction false} ExplodeRowsAppend(a: seq<Row>, b: seq<Row>, i: nat, w: nat)
    requires i < w && RowsOfWidth(a, w) && RowsOfWidth(b, w)
    ensures RowsOfWidth(a + b, w)
    ensures ExplodeRows(a + b, i, w) == ExplodeRows(a, i, w) + ExplodeRows(b, i, w)
  {
    RowsOfWidthAppend(a, b, w);
    if a == [] {
      assert a + b == b;
    } else {
      var r, tail := a[0], a[1..];
      ExplodeRowsAppend(tail, b, i, w);
      ConsAppend(a, b);
      ExplodeRowsCons(r, tail + b, i, w);
      ExplodeRowsCons(r, tail, i, w);
      AppendAssoc(ExplodeRow(r, i), ExplodeRows(tail, i, w), ExplodeRows(b, i, w));
    }
  }

  lemma ConsAppend<T>(a: seq<T>, b: seq<T>)
    requires a != []
    ensures a == [a[0]] + a[1..] && a + b == [a[0]] + (a[1..] + b)
  {
  }

  lemma AppendAssoc<T>(x: seq<T>, y: seq<T>, z: seq<T>)
    ensures x + (y + z) == (x + y) + z
  {
  }

  lemma ExplodeRowsCons(r: Row, rest: seq<Row>, i: nat, w: nat)
    requires i < w && |r| == w && RowsOfWidth(rest, w)
    ensures RowsOfWidth([r] + rest, w)
    ensures ExplodeRows([r] + rest, i, w) == ExplodeRow(r, i) + ExplodeRows(rest, i, w)
  {
    assert ([r] + rest)[0] == r && ([r] + rest)[1..] == rest;
  }

  lemma RowsOfWidthAppend(a: seq<Row>, b: seq<Row>, w: nat)
    requires RowsOfWidth(a, w) && RowsOfWidth(b, w)
    ensures RowsOfWidth(a + b, w)
  {
    forall k | 0 <= k < |a + b|
      ensures |(a + b)[k]| == w
    {
      if k >= |a| {
        assert (a + b)[k] == b[k - |a|];
      }
    }
  }

  lemma {:induction false} ExplodeAllAppend(s: Schema, a: seq<Row>, b: seq<Row>, P: seq<nat>)
    requires RowsOfWidth(a, |s|) && RowsOfWidth(b, |s|) && ArrayPositions(s, P)
    ensures RowsOfWidth(a + b, |s|)
    ensures ExplodeAll(Table(s, a + b), P).schema == ExplodeAll(Table(s, a), P).schema
    ensures ExplodeAll(Table(s, a + b), P).rows == ExplodeAll(Table(s, a), P).rows + ExplodeAll(Table(s, b), P).rows
    decreases |P|
  {
    assert RowsOfWidth(a + b, |s|);
    if P != [] {
      var i := P[0];
      var s' := s[i := Field(s[i].name, s[i].ty.elem)];
      ExplodeRowsAppend(a, b, i, |s|);
      assert Explode(Table(s, a + b), i) == Table(s', ExplodeRows(a, i, |s|) + ExplodeRows(b, i, |s|));
      ExplodeAllAppend(s', ExplodeRows(a, i, |s|), ExplodeRows(b, i, |s|), P[1..]);
    }
  }

  lemma {:induction false} FanProductAgree(q: Row, r: Row, P: seq<nat>)
    requires forall k :: 0 <= k < |P| ==> P[k] < |q| && P[k] < |r| && q[P[k]] == r[P[k]]
    ensures FanProduct(q, P) == FanProduct(r, P)
  {
    if P != [] {
      FanProductAgree(q, r, P[1..]);
    }
  }

  predicate Within(P: seq<nat>, w: nat) {
    forall j :: 0 <= j < |P| ==> P[j] < w
  }

  /** The rows the columns P make of all the rows Q together: the sum of the rows' fan products. */
  function FanTotal(Q: seq<Row>, P: seq<nat>, w: nat): nat
    requires RowsOfWidth(Q, w) && Within(P, w)
  {
    if Q == [] then 0 else FanProduct(Q[0], P) + FanTotal(Q[1..], P, w)
  }

  lemma {:induction false} FanTotalAppend(a: seq<Row>, b: seq<Row>, P: seq<nat>, w: nat)
    requires RowsOfWidth(a, w) && RowsOfWidth(b, w) && Within(P, w)
    ensures RowsOfWidth(a + b, w)
    ensures FanTotal(a + b, P, w) == FanTotal(a, P, w) + FanTotal(b, P, w)
  {
    RowsOfWidthAppend(a, b, w);
    if a == [] {
      assert a + b == b;
    } else {
      assert (a + b)[0] == a[0] && (a + b)[1..] == a[1..] + b;
      FanTotalAppend(a[1..], b, P, w);
    }
  }

  /** Rows that agree with r on the columns P make |Q| times r's fan product. */
  lemma {:induction false} FanTotalSame(Q: seq<Row>, r: Row, P: seq<nat>, w: nat)
    requires RowsOfWidth(Q, w) && |r| == w && Within(P, w)
    requires forall k, j :: 0 <= k < |Q| && 0 <= j < |P| ==> Q[k][P[j]] == r[P[j]]
    ensures FanTotal(Q, P, w) == |Q| * FanProduct(r, P)
  {
    if Q != [] {
      FanTotalSame(Q[1..], r, P, w);
      FanProductAgree(Q[0], r, P);
      assert (|Q| - 1 + 1) * FanProduct(r, P) == FanProduct(r, P) + (|Q| - 1) * FanProduct(r, P);
    }
  }

  /** Exploding column i turns each row's fan product over [i] + rest into rows whose fan products over rest add up to it. */
  lemma {:induction false} ExplodeRowsFan(Q: seq<Row>, i: nat, rest: seq<nat>, w: nat)
    requires i < w && RowsOfWidth(Q, w) && Within(rest, w)
    requires forall j :: 0 <= j < |rest| ==> rest[j] != i
    ensures Within([i] + rest, w)
    ensures FanTotal(ExplodeRows(Q, i, w), rest, w) == FanTotal(Q, [i] + rest, w)
  {
    assert Within([i] + rest, w);
    if Q != [] {
      var r := Q[0];
      var head := ExplodeRow(r, i);
      assert RowsOfWidth(head, w);
      assert RowsOfWidth(Q[1..], w);
      ExplodeRowsFan(Q[1..], i, rest, w);
      FanTotalAppend(head, ExplodeRows(Q[1..], i, w), rest, w);
      FanTotalSame(head, r, rest, w);
      assert ([i] + rest)[1..] == rest;
      assert FanProduct(r, [i] + rest) == Fan(r[i]) * FanProduct(r, rest);
    }
  }

  lemma {:induction false} FanTotalNoColumns(Q: seq<Row>, w: nat)
    requires RowsOfWidth(Q, w)
    ensures FanTotal(Q, [], w) == |Q|
  {
    if Q != [] {
      FanTotalNoColumns(Q[1..], w);
    }
  }

  /**
   * Exploding the array columns P one after another makes, of every row,
   * the product of its fans over P: the table has the sum of those rows.
   */
  lemma {:induction false} ExplodeAllCount(t: Table, P: seq<nat>)
    requires Shaped(t) && ArrayPositions(t.schema, P)
    ensures Within(P, |t.schema|)
    ensures |ExplodeAll(t, P).rows| == FanTotal(t.rows, P, |t.schema|)
    decreases |P|
  {
    var w := |t.schema|;
    if P == [] {
      FanTotalNoColumns(t.rows, w);
    } else {
      var i, rest := P[0], P[1..];
      var t' := Explode(t, i);
      ExplodeAllCount(t', rest);
      ExplodeRowsFan(t.rows, i, rest, w);
      assert [i] + rest == P;
    }
  }

  /** One row explodes into the product of its arrays' fans: max(1, m) * max(1, n) * ... rows. */
  lemma ExplodeAllOneRow(s: Schema, r: Row, P: seq<nat>)
    requires |r| == |s| && ArrayPositions(s, P)
    ensures |ExplodeAll(Table(s, [r]), P).rows| == FanProduct(r, P)
  {
    ExplodeAllCount(Table(s, [r]), P);
    assert [r][1..] == [];
  }

  /** Two array columns of lengths m and n turn one row into max(1, m) * max(1, n) rows. */
  lemma TwoArrayColumns(s: Schema, r: Row)
    requires |r| == |s| && |ArrayCols(s)| == 2
    ensures var i, j := ArrayCols(s)[0], ArrayCols(s)[1];
            |ArrayPass(Table(s, [r])).rows| == Fan(r[i]) * Fan(r[j])
  {
    var P := ArrayCols(s);
    ExplodeAllOneRow(s, r, P);
    assert FanProduct(r, P[1..]) == Fan(r[P[1]]) * FanProduct(r, P[1..][1..]);
    assert P[1..][1..] == [];
  }

  // ---------------------------------------------------------------------
  // flatten_nested as the source runs it

  /** The positions of the columns whose type is of category c, collected by a scan of the schema. */
  method CollectColumns(s: Schema, c: Category) returns (P: seq<nat>)
    ensures P == Positions(s, |s|, c)
  {
    P := [];
    var i := 0;
    while i < |s|
      invariant i <= |s| && P == Positions(s, i, c)
    {
      if InCategory(s[i].ty, c) {
        P := P + [i];
      }
      i := i + 1;
    }
  }

  /** The columns that are not structs, in schema order. */
  method KeptColumns(s: Schema) returns (kept: seq<Proj>)
    ensures kept == KeptPlan(s, |s|)
  {
    kept := [];
    var i := 0;
    while i < |s|
      invariant i <= |s| && kept == KeptPlan(s, i)
    {
      if !s[i].ty.Struct? {
        kept := kept + [Keep(i)];
      }
      i := i + 1;
    }
  }

  /**
   * The projection list of a struct pass, built as the source builds it:
   * the non-struct columns first, then for each struct column in turn its
   * children in field order.
   */
  method StructProjection(s: Schema, structCols: seq<nat>) returns (flattenCols: seq<Proj>)
    requires structCols == StructCols(s)
    ensures flattenCols == StructPlan(s)
  {
    var kept := KeptColumns(s);
    flattenCols := kept;
    var n := 0;
    ChildPlanPrefix(s, structCols, 0);
    while n < |structCols|
      invariant n <= |structCols| && StructPositions(s, structCols[..n])
      invariant flattenCols == kept + ChildPlan(s, structCols[..n])
    {
      var nc := structCols[n];
      ChildPlanPrefix(s, structCols, n + 1);
      flattenCols := AppendChildren(s, nc, flattenCols);
      n := n + 1;
    }
    assert structCols[..|structCols|] == structCols;
  }

  /** The child plan of the first n struct columns extends that of the first n - 1 by column n - 1's children. */
  lemma ChildPlanPrefix(s: Schema, P: seq<nat>, n: nat)
    requires StructPositions(s, P) && n <= |P|
    ensures StructPositions(s, P[..n])
    ensures n > 0 ==> StructPositions(s, P[..n - 1]) &&
                      ChildPlan(s, P[..n]) == ChildPlan(s, P[..n - 1]) + ChildrenOf(s, P[n - 1])
  {
    if n > 0 {
      assert P[..n][..n - 1] == P[..n - 1];
    }
  }

  /** One child column per field of struct column nc, appended in field order. */
  method AppendChildren(s: Schema, nc: nat, cols: seq<Proj>) returns (out: seq<Proj>)
    requires nc < |s| && s[nc].ty.Struct?
    ensures out == cols + ChildrenOf(s, nc)
  {
    out := cols;
    var j := 0;
    while j < |s[nc].ty.fields|
      invariant j <= |s[nc].ty.fields|
      invariant out == cols + ChildrenOf(s, nc)[..j]
    {
      assert ChildrenOf(s, nc)[..j + 1] == ChildrenOf(s, nc)[..j] + [ChildOf(nc, j)];
      out := out + [ChildOf(nc, j)];
      j := j + 1;
    }
    assert ChildrenOf(s, nc)[..j] == ChildrenOf(s, nc);
  }

  /** The array columns P exploded one after another on the running table. */
  method ExplodeColumns(df: Table, P: seq<nat>) returns (exploded: Table)
    requires Shaped(df) && ArrayPositions(df.schema, P)
    ensures exploded == ExplodeAll(df, P)
  {
    exploded := df;
    var n := 0;
    while n < |P|
      invariant n <= |P|
      invariant Shaped(exploded) && |exploded.schema| == |df.schema|
      invariant forall k :: n <= k < |P| ==> exploded.schema[P[k]] == df.schema[P[k]]
      invariant ArrayPositions(exploded.schema, P[n..])
      invariant ExplodeAll(exploded, P[n..]) == ExplodeAll(df, P)
    {
      assert P[n..][1..] == P[n + 1..];
      exploded := Explode(exploded, P[n]);
      n := n + 1;
    }
  }

  /**
   * `flatten_nested`: collects the struct and array columns; with a struct
   * column, selects the struct pass's projection and recurses; otherwise,
   * with an array column, explodes them all and recurses; otherwise
   * returns the table.
   */
  method FlattenNested(df: Table) returns (r: Table)
    requires Shaped(df)
    ensures r == Flatten(df)
    decreases FieldsSize(df.schema)
  {
    var structCols := CollectColumns(df.schema, StructCat);
    var arrayCols := CollectColumns(df.schema, ArrayCat);
    if structCols != [] {
      // the source collects the struct columns a second time here; it is the same list
      var flattenCols := StructProjection(df.schema, structCols);
      StructPassShrinks(df);
      r := FlattenNested(Select(df, flattenCols));
    } else if arrayCols != [] {
      // likewise for the array columns
      var exploded := ExplodeColumns(df, arrayCols);
      ArrayPassShrinks(df);
      r := FlattenNested(exploded);
    } else {
      r := df;
    }
  }
}

=== FILE: julian.dfy ===
/**
 * The "Julian" date code of CommonTransforms: two year digits followed by
 * the day of the year. The encoder concatenates the text of the year's third
 * and fourth digits with the unpadded day of the year and reads the result
 * as an integer; the decoder dispatches on the length of the code's text:
 * five characters are YYDDD with a century pivot at 50, seven are YYYYDDD,
 * and every other length falls back to year 0 and day 0.
 */
module Julian {
  import opened Decimal
  import opened Calendar

  /** What a decoded code denotes. */
  datatype JulianDate =
    | Calendar(date: Date)
      /** The year-0, day-0 fallback: the reference-year text "0-01-01" is
          left to the engine's cast, which this model does not pin down. */
    | Unresolved

  /** The year and day count the decoder extracts; (0, 0) is the fallback. */
  datatype Parts = Parts(year: nat, days: nat)

  /** The two-digit-year pivot: 00..50 are 2000..2050, 51..99 are 1951..1999. */
  function PivotYear(yy: nat): (y: nat)
    ensures yy < 100 ==> 1951 <= y <= 2050 && y % 100 == yy
    ensures yy < 100 ==> (y >= 2000 <==> yy <= 50)
  {
    if yy <= 50 then 2000 + yy else 1900 + yy
  }

  /** Year and day count read from the text of a code. */
  function DecodeParts(code: nat): (p: Parts)
    ensures p.days <= 999
    ensures p.year == 0 <==> |Digits(code)| != 5 && |Digits(code)| != 7
  {
    var s := Digits(code);
    if |s| == 5 then
      var yy := Substring(s, 1, 2);
      var century := if ParseNat(yy) <= 50 then "20" else "19";
      ParseConcat(century, yy);
      Parts(ParseNat(century + yy), ParseNat(Substring(s, 3, 3)))
    else if |s| == 7 then
      var yyyy := Substring(s, 1, 4);
      assert yyyy[0] == s[0];
      assert ParseNat(yyyy) != 0 by {
        ParseConcat(yyyy, []);
        DigitsLength(ParseNat(yyyy), 4);
        DigitsOfParse(yyyy);
      }
      Parts(ParseNat(yyyy), ParseNat(Substring(s, 5, 3)))
    else
      Parts(0, 0)
  }

  /** The decoded date: January 1 of the year, plus the day count, minus one. */
  function Decode(code: nat): (j: JulianDate)
    ensures j.Calendar? ==> ValidDate(j.date)
    ensures j.Unresolved? <==> |Digits(code)| != 5 && |Digits(code)| != 7
  {
    var p := DecodeParts(code);
    if p.year == 0 then Unresolved
    else
      AddDaysOrdinal(NewYear(p.year), p.days - 1);
      Calendar(AddDays(NewYear(p.year), p.days - 1))
  }

  /** Day of the year as the encoder computes it: days since January 1, plus one. */
  function DayOfYear(d: Date): (n: nat)
    ensures n == d.dayOfYear
  {
    DateDiffNewYear(d);
    DateDiff(d, NewYear(d.year)) + 1
  }

  /** The third and fourth characters of the year's text. */
  function YearDigits(d: Date): (s: string)
    ensures IsDigits(s) && |s| <= 2
  {
    Substring(Show(d.year), 3, 2)
  }

  /** The code of a date: the year digits followed by the unpadded day of the year. */
  function Encode(d: Date): nat {
    var day := Digits(DayOfYear(d));
    ParseConcat(YearDigits(d), day);
    ParseNat(YearDigits(d) + day)
  }

  // ---------------------------------------------------------------------
  // The decoder against arithmetic on the code

  /** A five-digit code YYDDD is day DDD of the pivoted year YY. */
  lemma DecodeFiveDigits(code: nat)
    requires 10000 <= code <= 99999
    ensures DecodeParts(code) == Parts(PivotYear(code / 1000), code % 1000)
    ensures Decode(code) == Calendar(AddDays(NewYear(PivotYear(code / 1000)), code % 1000 - 1))
  {
    assert Pow10(4) == 10000 && Pow10(5) == 100000;
    DigitsLength(code, 5);
    var s := Digits(code);
    assert |s| == 5;
    assert Substring(s, 1, 2) == s[..2];
    assert Substring(s, 3, 3) == s[2..];
    SplitDigits(code, s, 2);
    var yy := code / 1000;
    var century := if yy <= 50 then "20" else "19";
    ParseConcat(century, s[..2]);
    assert ParseNat(century) == if yy <= 50 then 20 else 19;
  }

  /** A seven-digit code YYYYDDD is day DDD of year YYYY. */
  lemma DecodeSevenDigits(code: nat)
    requires 1000000 <= code <= 9999999
    ensures DecodeParts(code) == Parts(code / 1000, code % 1000)
    ensures Decode(code) == Calendar(AddDays(NewYear(code / 1000), code % 1000 - 1))
  {
    assert Pow10(6) == 1000000 && Pow10(7) == 10000000;
    DigitsLength(code, 7);
    var s := Digits(code);
    assert |s| == 7;
    assert Substring(s, 1, 4) == s[..4];
    assert Substring(s, 5, 3) == s[4..];
    SplitDigits(code, s, 4);
  }

  /** Every other length falls back to year 0 and day 0, which is unresolved. */
  lemma DecodeOtherLength(code: nat)
    requires !(10000 <= code <= 99999) && !(1000000 <= code <= 9999999)
    ensures DecodeParts(code) == Parts(0, 0)
    ensures Decode(code) == Unresolved
  {
    DigitsLength(code, 5);
    DigitsLength(code, 7);
  }

  /** The pivot boundary: 50 is 2050 and 51 is 1951. */
  lemma PivotBoundary()
    ensures Decode(50045) == Calendar(Date(2050, 45))
    ensures Decode(51045) == Calendar(Date(1951, 45))
  {
    PivotDate(50, 45);
    PivotDate(51, 45);
  }

  /** Day 366 of a leap pivot year decodes too: 24366 is 2024, day 366. */
  lemma PivotLeapDay()
    ensures Decode(24366) == Calendar(Date(2024, 366))
  {
    assert DaysInYear(2024) == 366;
    PivotDate(24, 366);
  }

  lemma PivotDate(yy: nat, ddd: nat)
    requires 10 <= yy <= 99 && 1 <= ddd <= DaysInYear(PivotYear(yy))
    ensures Decode(yy * 1000 + ddd) == Calendar(Date(PivotYear(yy), ddd))
  {
    var code := yy * 1000 + ddd;
    DivModUnique(code, 1000, yy, ddd);
    DecodeFiveDigits(code);
  }

  /** A seven-digit code built from a four-digit year and a day of that year decodes to that date. */
  lemma SevenDigitRoundTrip(d: Date)
    requires ValidDate(d) && 1000 <= d.year <= 9999
    ensures Decode(d.year * 1000 + d.dayOfYear) == Calendar(d)
  {
    DivModUnique(d.year * 1000 + d.dayOfYear, 1000, d.year, d.dayOfYear);
    DecodeSevenDigits(d.year * 1000 + d.dayOfYear);
  }

  // ---------------------------------------------------------------------
  // The encoder against arithmetic on the date

  /** For a four-digit year the code is (year mod 100) shifted left by the day's digit count, plus the day. */
  lemma EncodeFourDigitYear(d: Date)
    requires 1000 <= d.year <= 9999
    ensures Encode(d) == (d.year % 100) * Pow10(|Digits(d.dayOfYear)|) + d.dayOfYear
  {
    var yd, day := YearDigits(d), Digits(d.dayOfYear);
    YearDigitsValue(d);
    ParseConcat(yd, day);
    ParseDigits(d.dayOfYear);
  }

  /** For a four-digit year the year digits are the year's last two places. */
  lemma YearDigitsValue(d: Date)
    requires 1000 <= d.year <= 9999
    ensures ParseNat(YearDigits(d)) == d.year % 100
  {
    var s := Digits(d.year);
    DigitsLength(d.year, 4);
    assert Pow10(2) == 100;
    assert YearDigits(d) == s[2..];
    SplitDigits(d.year, s, 2);
  }

  /** The code of a real date has at most five digits, so it fits the integer column. */
  lemma EncodeBound(d: Date)
    requires ValidDate(d)
    ensures Encode(d) < 100000
  {
    var day := Digits(d.dayOfYear);
    DigitsLength(d.dayOfYear, |day|);
    if |day| > 3 {
      PowMonotone(3, |day| - 1);
    }
    ParseConcat(YearDigits(d), day);
    PowMonotone(|YearDigits(d) + day|, 5);
  }

  /** 2024, day 45 encodes as 2445, not 24045, and 2445 does not decode. */
  lemma EncodeUnpaddedExample()
    ensures Encode(Date(2024, 45)) == 2445
    ensures Decode(2445) == Unresolved
  {
    EncodeFourDigitYear(Date(2024, 45));
    DigitsLength(45, 2);
    DecodeOtherLength(2445);
  }

  /**
   * Decoding the code of a date gives the date back exactly when the day of
   * the year has three digits and the year is one the pivot reconstructs
   * with two non-zero-led digits: 1951..1999 or 2010..2050.
   */
  lemma RoundTrip(d: Date)
    requires ValidDate(d)
    ensures Decode(Encode(d)) == Calendar(d) <==>
            d.dayOfYear >= 100 && (1951 <= d.year <= 1999 || 2010 <= d.year <= 2050)
  {
    if d.dayOfYear >= 100 && (1951 <= d.year <= 1999 || 2010 <= d.year <= 2050) {
      RoundTripInRange(d);
    } else if Decode(Encode(d)) == Calendar(d) {
      RoundTripOnlyInRange(d);
    }
  }

  lemma RoundTripInRange(d: Date)
    requires ValidDate(d)
    requires d.dayOfYear >= 100 && (1951 <= d.year <= 1999 || 2010 <= d.year <= 2050)
    ensures Decode(Encode(d)) == Calendar(d)
  {
    var yy := d.year % 100;
    assert PivotYear(yy) == d.year by {
      if d.year <= 1999 {
        DivModUnique(d.year, 100, 19, d.year - 1900);
      } else {
        DivModUnique(d.year, 100, 20, d.year - 2000);
      }
    }
    EncodeThreeDigitDay(d);
    var code := Encode(d);
    assert code / 1000 == yy && code % 1000 == d.dayOfYear by {
      DivModUnique(code, 1000, yy, d.dayOfYear);
    }
    DecodeFiveDigits(code);
  }

  lemma EncodeThreeDigitDay(d: Date)
    requires 1000 <= d.year <= 9999 && 100 <= d.dayOfYear <= 999
    ensures Encode(d) == (d.year % 100) * 1000 + d.dayOfYear
  {
    EncodeFourDigitYear(d);
    DigitsLength(d.dayOfYear, 3);
    assert Pow10(2) == 100 && Pow10(3) == 1000;
  }

  lemma RoundTripOnlyInRange(d: Date)
    requires ValidDate(d)
    requires Decode(Encode(d)) == Calendar(d)
    ensures d.dayOfYear >= 100 && (1951 <= d.year <= 1999 || 2010 <= d.year <= 2050)
  {
    var code := Encode(d);
    EncodeBound(d);
    assert 10000 <= code by {
      if code < 10000 {
        DecodeOtherLength(code);
      }
    }
    DecodedFiveDigits(code, d);
    // the date's year has four digits, so the code is (year mod 100, day)
    FiveDigitCode(d);
    DivModUnique(code, 1000, d.year % 100, d.dayOfYear);
    // day ddd of year y is the date itself only when y is the date's year
    SameDayOfYear(PivotYear(code / 1000), d);
  }

  /** The date a five-digit code decodes to is day DDD - 1 after January 1 of pivot(YY), in 1950..2052. */
  lemma DecodedFiveDigits(code: nat, d: Date)
    requires 10000 <= code <= 99999 && Decode(code) == Calendar(d)
    ensures d == AddDays(NewYear(PivotYear(code / 1000)), code % 1000 - 1)
    ensures 1950 <= d.year <= 2052
  {
    DecodeFiveDigits(code);
    AddDaysYearRange(PivotYear(code / 1000), code % 1000);
  }

  /**
   * With a four-digit year the code has five digits exactly when the day has
   * three digits and the year ends in 10..99; the code is then YY * 1000 + DDD.
   */
  lemma FiveDigitCode(d: Date)
    requires ValidDate(d) && 1000 <= d.year <= 9999
    ensures 10000 <= Encode(d) <==> d.dayOfYear >= 100 && d.year % 100 >= 10
    ensures 10000 <= Encode(d) ==> Encode(d) == (d.year % 100) * 1000 + d.dayOfYear
  {
    if d.dayOfYear < 100 || d.year % 100 < 10 {
      PaddingDefect(d);
    } else {
      EncodeThreeDigitDay(d);
    }
  }

  /** Adding day-of-year minus one to a January 1 lands on that day of the year only in that same year. */
  lemma SameDayOfYear(y: int, d: Date)
    requires ValidDate(d) && d == AddDays(NewYear(y), d.dayOfYear - 1)
    ensures d.year == y
  {
  }

  /** The padding defect: with a four-digit year, a day below 100 or a year ending in 00..09 never yields five digits. */
  lemma PaddingDefect(d: Date)
    requires ValidDate(d) && 1000 <= d.year <= 9999
    requires d.dayOfYear < 100 || d.year % 100 < 10
    ensures Encode(d) < 10000
    ensures Decode(Encode(d)) == Unresolved
  {
    EncodeFourDigitYear(d);
    ShiftedBelow(d.year % 100, d.dayOfYear);
    DecodeOtherLength(Encode(d));
  }

  /** A day of fewer than three digits, or a one-digit year, leaves the shifted code below five digits. */
  lemma ShiftedBelow(y: nat, doy: nat)
    requires y < 100 && doy < 1000 && (doy < 100 || y < 10)
    ensures y * Pow10(|Digits(doy)|) + doy < 10000
  {
    var k := |Digits(doy)|;
    DigitsLength(doy, k);
    if doy < 100 {
      DigitsLength(doy, 3);
      assert k <= 2;
      PowMonotone(k, 2);
      ShortCode(y, Pow10(k), doy, 100);
    } else {
      DigitsLength(doy, 3);
      assert k == 3;
      ShortCode(y, Pow10(k), doy, 1000);
    }
  }

  /** A two-digit year shifted by at most two places, or a one-digit year by three, stays below 10000. */
  lemma ShortCode(y: nat, p: nat, doy: nat, bound: nat)
    requires y < 100 && p <= bound && doy < bound
    requires bound == 100 || (bound == 1000 && y < 10)
    ensures y * p + doy < 10000
  {
    if bound == 100 {
      MulMonotone(y, 99, p);
      assert 99 * p <= 99 * 100;
    } else {
      MulMonotone(y, 9, p);
      assert 9 * p <= 9 * 1000;
    }
  }
}

=== FILE: tables.dfy ===
/**
 * The tables the transformations work on: a schema of named, typed columns
 * and a sequence of rows aligned with it. A column type is a leaf (with the
 * engine's scalar kind), a struct of named fields, or an array of elements.
 */
module Tables {
  import opened Calendar

  datatype Option<T> = None | Some(value: T)

  datatype LeafKind = IntegerType | DateType | TimestampType | StringType | OtherType

  datatype Type =
    | Leaf(kind: LeafKind)
    | Struct(fields: seq<Field>)
    | Array(elem: Type)

  datatype Field = Field(name: string, ty: Type)

  type Schema = seq<Field>

  /**
   * A scalar cell. `FallbackDate` is the date the engine makes of the Julian
   * decoder's year-0 fallback; `DecodeCell` turns the decoder's `Unresolved`
   * result into it.
   */
  datatype Datum =
    | Int(i: int)
    | Day(date: Date)
    | Stamp(date: Date, secondOfDay: nat)
    | Text(s: string)
    | FallbackDate

  datatype Value =
    | Null
    | Scalar(datum: Datum)
    | Rec(vals: seq<Value>)
    | Arr(elems: seq<Value>)

  type Row = seq<Value>

  datatype Table = Table(schema: Schema, rows: seq<Row>)

  /** Every row has one value per column. */
  predicate Shaped(t: Table) {
    forall k :: 0 <= k < |t.rows| ==> |t.rows[k]| == |t.schema|
  }

  predicate DatumHasKind(x: Datum, kind: LeafKind) {
    match kind
    case IntegerType => x.Int?
    case DateType => x.Day? || x.FallbackDate?
    case TimestampType => x.Stamp?
    case StringType => x.Text?
    case OtherType => true
  }

  /** A value conforms to a type; null conforms to every type. */
  predicate Conforms(v: Value, t: Type)
    decreases v
  {
    match v
    case Null => true
    case Scalar(x) => t.Leaf? && DatumHasKind(x, t.kind)
    case Rec(vs) =>
      t.Struct? && |vs| == |t.fields| &&
      forall i :: 0 <= i < |vs| ==> Conforms(vs[i], t.fields[i].ty)
    case Arr(es) => t.Array? && forall i :: 0 <= i < |es| ==> Conforms(es[i], t.elem)
  }

  predicate RowConforms(s: Schema, r: Row) {
    |r| == |s| && forall i :: 0 <= i < |s| ==> Conforms(r[i], s[i].ty)
  }

  /** Every row conforms to the schema. */
  predicate WellTyped(t: Table) {
    forall k :: 0 <= k < |t.rows| ==> RowConforms(t.schema, t.rows[k])
  }

  /** The position of the first column called `name`, if any. */
  function FindColumn(s: Schema, name: string): (i: int)
    ensures -1 <= i < |s|
    ensures i >= 0 ==> s[i].name == name && forall j :: 0 <= j < i ==> s[j].name != name
    ensures i == -1 ==> forall j :: 0 <= j < |s| ==> s[j].name != name
  {
    if s == [] then -1
    else if s[0].name == name then 0
    else
      var j := FindColumn(s[1..], name);
      if j == -1 then -1 else j + 1
  }

  predicate UniqueNames(s: Schema) {
    forall i, j :: 0 <= i < j < |s| ==> s[i].name != s[j].name
  }

  function RemoveAt<T>(s: seq<T>, i: nat): (r: seq<T>)
    requires i < |s|
    ensures |r| == |s| - 1
    ensures forall j :: 0 <= j < i ==> r[j] == s[j]
    ensures forall j :: i <= j < |r| ==> r[j] == s[j + 1]
  {
    s[..i] + s[i + 1..]
  }
}

=== FILE: transforms.dfy ===
/**
 * The `CommonTransforms` object: a table it rewrites in place and the schema
 * the table had when the object was made. `julian_to_calendar` and
 * `calendar_to_julian` pick their columns from that captured schema, then
 * rewrite each picked column of the current table in turn: the converted
 * column is added under a temporary name, the original is dropped and the
 * new one renamed, so it ends up as the last column.
 */
module Transforms {
  import opened Calendar
  import opened Julian
  import opened Tables

  // ---------------------------------------------------------------------
  // Cells

  /** A decoded Julian cell: the date of a five- or seven-digit code, the unresolved fallback otherwise. */
  function DecodeCell(v: Value): (r: Value)
    ensures Conforms(r, Leaf(DateType)) && r != Null
  {
    if v.Scalar? && v.datum.Int? && v.datum.i >= 0 then
      match Decode(v.datum.i)
      case Calendar(d) => Scalar(Day(d))
      case Unresolved => Scalar(FallbackDate)
    else
      Scalar(FallbackDate)
  }

  /** An encoded calendar cell: the Julian code of the date (or of the timestamp's date); null stays null. */
  function EncodeCell(v: Value): (r: Value)
    ensures Conforms(r, Leaf(IntegerType))
    ensures r.Null? <==> !(v.Scalar? && (v.datum.Day? || v.datum.Stamp?))
  {
    if v.Scalar? && v.datum.Day? then Scalar(Int(Encode(v.datum.date)))
    else if v.Scalar? && v.datum.Stamp? then Scalar(Int(Encode(v.datum.date)))
    else Null
  }

  /** A five-digit cell YYDDD is day DDD of the pivoted year YY; a seven-digit one day DDD of YYYY. */
  lemma DecodeCellCodes(code: int)
    ensures 10000 <= code <= 99999 ==>
              DecodeCell(Scalar(Int(code))) == Scalar(Day(AddDays(NewYear(PivotYear(code / 1000)), code % 1000 - 1)))
    ensures 1000000 <= code <= 9999999 ==>
              DecodeCell(Scalar(Int(code))) == Scalar(Day(AddDays(NewYear(code / 1000), code % 1000 - 1)))
  {
    if 10000 <= code <= 99999 {
      DecodeFiveDigits(code);
    } else if 1000000 <= code <= 9999999 {
      DecodeSevenDigits(code);
    }
  }

  /** Null cells and codes of any other length fall back to the unresolved date. */
  lemma DecodeCellFallback(v: Value)
    requires v.Null? || (v.Scalar? && v.datum.Int? && !(10000 <= v.datum.i <= 99999) && !(1000000 <= v.datum.i <= 9999999))
    ensures DecodeCell(v) == Scalar(FallbackDate)
  {
    if v.Scalar? && v.datum.i >= 0 {
      DecodeOtherLength(v.datum.i);
    }
  }

  /** The years and days for which encoding a date cell and decoding it again gives it back. */
  predicate InRoundTripRange(d: Date) {
    d.dayOfYear >= 100 && (1951 <= d.year <= 1999 || 2010 <= d.year <= 2050)
  }

  /**
   * A date cell survives `calendar_to_julian` followed by `julian_to_calendar`
   * exactly when its day of the year has three digits and its year is one
   * the pivot reconstructs; a timestamp comes back as its date.
   */
  lemma CellRoundTrip(d: Date, second: nat)
    requires ValidDate(d)
    ensures DecodeCell(EncodeCell(Scalar(Day(d)))) == Scalar(Day(d)) <==> InRoundTripRange(d)
    ensures DecodeCell(EncodeCell(Scalar(Stamp(d, second)))) == Scalar(Day(d)) <==> InRoundTripRange(d)
  {
    RoundTrip(d);
  }

  // ---------------------------------------------------------------------
  // Columns

  /** The two conversions; each accepts columns of some types and yields columns of one type. */
  datatype Conversion = ToCalendar | ToJulian

  predicate Accepts(c: Conversion, ty: Type) {
    match c
    case ToCalendar => ty == Leaf(IntegerType)
    case ToJulian => ty == Leaf(DateType) || ty == Leaf(TimestampType)
  }

  function Target(c: Conversion): Type {
    match c
    case ToCalendar => Leaf(DateType)
    case ToJulian => Leaf(IntegerType)
  }

  function Cell(c: Conversion, v: Value): Value {
    match c
    case ToCalendar => DecodeCell(v)
    case ToJulian => EncodeCell(v)
  }

  function MapCells(c: Conversion, vs: seq<Value>): (r: seq<Value>)
    ensures |r| == |vs| && forall k :: 0 <= k < |vs| ==> r[k] == Cell(c, vs[k])
  {
    seq(|vs|, k requires 0 <= k < |vs| => Cell(c, vs[k]))
  }

  /** A column as a reader of the table sees it by name: its type and its values, row by row. */
  datatype Column = Column(ty: Type, vals: seq<Value>)

  function Lookup(t: Table, name: string): Option<Column>
    requires Shaped(t)
  {
    var j := FindColumn(t.schema, name);
    if j < 0 then None
    else Some(Column(t.schema[j].ty, Cells(t.rows, j)))
  }

  /** The cells of column j, row by row. */
  function Cells(rows: seq<Row>, j: nat): (r: seq<Value>)
    requires forall k :: 0 <= k < |rows| ==> j < |rows[k]|
    ensures |r| == |rows| && forall k :: 0 <= k < |rows| ==> r[k] == rows[k][j]
  {
    seq(|rows|, k requires 0 <= k < |rows| => rows[k][j])
  }

  /**
   * The rewrite of one column: it must exist in the current table with a
   * type the conversion accepts (otherwise the engine rejects the plan);
   * the converted column replaces it under the same name, as the last column.
   */
  function Convert(t: Table, c: Conversion, name: string): (r: Option<Table>)
    requires Shaped(t)
    ensures r.Some? <==> FindColumn(t.schema, name) >= 0 && Accepts(c, t.schema[FindColumn(t.schema, name)].ty)
    ensures r.Some? ==> Shaped(r.value) && |r.value.rows| == |t.rows| && |r.value.schema| == |t.schema|
    ensures r.Some? && UniqueNames(t.schema) ==> UniqueNames(r.value.schema)
  {
    var i := FindColumn(t.schema, name);
    if i < 0 || !Accepts(c, t.schema[i].ty) then None
    else
      var s' := RemoveAt(t.schema, i) + [Field(name, Target(c))];
      assert UniqueNames(t.schema) ==> UniqueNames(s') by {
        if UniqueNames(t.schema) {
          forall a, b | 0 <= a < b < |s'|
            ensures s'[a].name != s'[b].name
          {
            var a0 := if a < i then a else a + 1;
            var b0 := if b < i then b else b + 1;
            assert s'[a] == t.schema[a0];
            if b < |s'| - 1 {
              assert s'[b] == t.schema[b0];
            } else {
              assert t.schema[i].name == name;
            }
          }
        }
      }
      Some(Table(s', ConvertRows(t.rows, i, |t.schema|, c)))
  }

  /** Every row with its cell i converted and moved to the end. */
  function ConvertRows(rows: seq<Row>, i: nat, w: nat, c: Conversion): (out: seq<Row>)
    requires i < w && forall k :: 0 <= k < |rows| ==> |rows[k]| == w
    ensures |out| == |rows|
    ensures forall k :: 0 <= k < |rows| ==> out[k] == RemoveAt(rows[k], i) + [Cell(c, rows[k][i])]
  {
    seq(|rows|, k requires 0 <= k < |rows| => RemoveAt(rows[k], i) + [Cell(c, rows[k][i])])
  }

  /** A rewrite is accepted exactly when the current table has the column, with a type the conversion accepts. */
  lemma ConvertDefined(t: Table, c: Conversion, name: string)
    requires Shaped(t)
    ensures Convert(t, c, name).Some? <==> Lookup(t, name).Some? && Accepts(c, Lookup(t, name).value.ty)
  {
  }

  /** Where a column other than the moved one is found once column i has moved to the end. */
  lemma FindAfterMove(s: Schema, i: nat, f: Field, m: string)
    requires i < |s| && m != f.name && m != s[i].name
    ensures var j := FindColumn(s, m);
            FindColumn(RemoveAt(s, i) + [f], m) == if j < 0 then -1 else if j < i then j else j - 1
  {
    var s' := RemoveAt(s, i) + [f];
    var j := FindColumn(s, m);
    if j < 0 {
      forall k | 0 <= k < |s'|
        ensures s'[k].name != m
      {
        if k < |s'| - 1 {
          assert s'[k] == s[if k < i then k else k + 1];
        }
      }
      NotFound(s', m);
    } else {
      var j' := if j < i then j else j - 1;
      assert s'[j'] == s[j];
      forall k | 0 <= k < j'
        ensures s'[k].name != m
      {
        assert s'[k] == s[if k < i then k else k + 1];
      }
      FoundFirst(s', m, j');
    }
  }

  /** The first column called m is the one found. */
  lemma FoundFirst(s: Schema, m: string, j: nat)
    requires j < |s| && s[j].name == m
    requires forall k :: 0 <= k < j ==> s[k].name != m
    ensures FindColumn(s, m) == j
  {
  }

  /** No column called m: nothing is found. */
  lemma NotFound(s: Schema, m: string)
    requires forall k :: 0 <= k < |s| ==> s[k].name != m
    ensures FindColumn(s, m) == -1
  {
  }

  /** After a rewrite, every column other than the rewritten one reads exactly as before. */
  lemma ConvertLookupOthers(t: Table, c: Conversion, name: string)
    requires Shaped(t) && Convert(t, c, name).Some?
    ensures forall m :: m != name ==> Lookup(Convert(t, c, name).value, m) == Lookup(t, m)
  {
    forall m | m != name
      ensures Lookup(Convert(t, c, name).value, m) == Lookup(t, m)
    {
      ConvertLookupOther(t, c, name, m);
    }
  }

  lemma ConvertLookupOther(t: Table, c: Conversion, name: string, m: string)
    requires Shaped(t) && Convert(t, c, name).Some? && m != name
    ensures Lookup(Convert(t, c, name).value, m) == Lookup(t, m)
  {
    var t' := Convert(t, c, name).value;
    var i := FindColumn(t.schema, name);
    FindAfterMove(t.schema, i, Field(name, Target(c)), m);
    var j := FindColumn(t.schema, m);
    if j >= 0 {
      var j' := if j < i then j else j - 1;
      assert t'.schema[j'] == t.schema[j];
      ConvertRowsKeep(t.rows, i, |t.schema|, c, j, j');
    }
  }

  /** Converting cell i of every row leaves every other column's cells, one place further left past i. */
  lemma ConvertRowsKeep(rows: seq<Row>, i: nat, w: nat, c: Conversion, j: nat, j': nat)
    requires i < w && j < w && j != i && forall k :: 0 <= k < |rows| ==> |rows[k]| == w
    requires j' == if j < i then j else j - 1
    ensures Cells(ConvertRows(rows, i, w, c), j') == Cells(rows, j)
  {
  }

  /** In a table with unique names, the rewritten column holds the converted values under the target type. */
  lemma ConvertLookupSelf(t: Table, c: Conversion, name: string)
    requires Shaped(t) && UniqueNames(t.schema) && Convert(t, c, name).Some?
    ensures Lookup(Convert(t, c, name).value, name) == Some(Column(Target(c), MapCells(c, Lookup(t, name).value.vals)))
  {
    var t' := Convert(t, c, name).value;
    var i := FindColumn(t.schema, name);
    var last := |t'.schema| - 1;
    MovedIsFound(t.schema, i, Target(c));
    assert Cells(t'.rows, last) == MapCells(c, Cells(t.rows, i));
  }

  /** In a schema with unique names, the column moved to the end is the one its name finds. */
  lemma MovedIsFound(s: Schema, i: nat, ty: Type)
    requires i < |s| && UniqueNames(s)
    ensures FindColumn(RemoveAt(s, i) + [Field(s[i].name, ty)], s[i].name) == |s| - 1
  {
    var s' := RemoveAt(s, i) + [Field(s[i].name, ty)];
    assert s'[|s| - 1].name == s[i].name;
    forall k | 0 <= k < |s| - 1
      ensures s'[k].name != s[i].name
    {
      assert s'[k] == if k < i then s[k] else s[k + 1];
    }
  }

  /** The table with column i moved to the end, everything else in its order. */
  function MoveToEnd(t: Table, i: nat): (r: Table)
    requires Shaped(t) && i < |t.schema|
    ensures |r.schema| == |t.schema| && |r.rows| == |t.rows|
    ensures r.schema[|r.schema| - 1] == t.schema[i]
    ensures forall k :: 0 <= k < |t.rows| ==> r.rows[k] == RemoveAt(t.rows[k], i) + [t.rows[k][i]]
  {
    Table(RemoveAt(t.schema, i) + [t.schema[i]],
          seq(|t.rows|, k requires 0 <= k < |t.rows| => RemoveAt(t.rows[k], i) + [t.rows[k][i]]))
  }

  /** Every cell of column i is a date in the round-trip range. */
  predicate DatesInRange(t: Table, i: nat)
    requires Shaped(t) && i < |t.schema|
  {
    forall k :: 0 <= k < |t.rows| ==>
      t.rows[k][i].Scalar? && t.rows[k][i].datum.Day? &&
      ValidDate(t.rows[k][i].datum.date) && InRoundTripRange(t.rows[k][i].datum.date)
  }

  /**
   * The encoder's column rewrite followed by the decoder's, on one date
   * column whose dates all lie in the round-trip range, gives the table
   * back with that column moved to the end. Through the two methods this
   * takes a second object made on the encoded table: on the same object the
   * decoder selects nothing (see `SameObjectNoReverse`).
   */
  lemma ColumnRoundTrip(t: Table, name: string)
    requires Shaped(t) && UniqueNames(t.schema)
    requires var i := FindColumn(t.schema, name);
             i >= 0 && t.schema[i].ty == Leaf(DateType) && DatesInRange(t, i)
    ensures Convert(t, ToJulian, name).Some?
    ensures Convert(Convert(t, ToJulian, name).value, ToCalendar, name) == Some(MoveToEnd(t, FindColumn(t.schema, name)))
  {
    var i := FindColumn(t.schema, name);
    var t1 := Convert(t, ToJulian, name).value;
    var last := |t1.schema| - 1;
    MovedIsFound(t.schema, i, Leaf(IntegerType));
    var t2 := Convert(t1, ToCalendar, name).value;
    var m := MoveToEnd(t, i);
    assert RemoveAt(t1.schema, last) == RemoveAt(t.schema, i);
    assert t2.schema == m.schema;
    forall k | 0 <= k < |t.rows|
      ensures t2.rows[k] == m.rows[k]
    {
      var r := t.rows[k];
      assert RemoveAt(t1.rows[k], last) == RemoveAt(r, i);
      CellRoundTrip(r[i].datum.date, 0);
    }
    assert t2.rows == m.rows;
  }

  // ---------------------------------------------------------------------
  // A run over several columns

  /** What a run leaves behind: the table, and whether every rewrite was accepted. */
  datatype Outcome = Outcome(table: Table, ok: bool)

  /**
   * The rewrites of the named columns, one after another on the running
   * table; the first rejected rewrite stops the run and the table keeps the
   * rewrites made before it.
   */
  function Run(t: Table, c: Conversion, names: seq<string>): (o: Outcome)
    requires Shaped(t)
    ensures Shaped(o.table) && |o.table.rows| == |t.rows|
  {
    if names == [] then Outcome(t, true)
    else
      var prev := Run(t, c, names[..|names| - 1]);
      if !prev.ok then prev
      else
        match Convert(prev.table, c, names[|names| - 1])
        case None => Outcome(prev.table, false)
        case Some(t') => Outcome(t', true)
  }

  /** The names of the columns of s that the conversion picks: accepted type and named in the subset, in schema order. */
  function Eligible(c: Conversion, s: Schema, subset: set<string>): seq<string> {
    if s == [] then []
    else
      var f := s[|s| - 1];
      Eligible(c, s[..|s| - 1], subset) + (if Accepts(c, f.ty) && f.name in subset then [f.name] else [])
  }

  /** A name is picked exactly when it is in the subset and names a column of an accepted type. */
  lemma {:induction false} EligibleMeaning(c: Conversion, s: Schema, subset: set<string>)
    ensures forall n :: n in Eligible(c, s, subset) <==>
              n in subset && exists j :: 0 <= j < |s| && s[j].name == n && Accepts(c, s[j].ty)
  {
    if s != [] {
      var init := s[..|s| - 1];
      EligibleMeaning(c, init, subset);
      assert forall j :: 0 <= j < |init| ==> init[j] == s[j];
    }
  }

  /**
   * On the object whose captured schema has `name` as a date column,
   * `julian_to_calendar` picks nothing for that name and leaves the table as
   * it is, even after `calendar_to_julian` has encoded the column.
   */
  lemma SameObjectNoReverse(s: Schema, t: Table, name: string)
    requires Shaped(t) && UniqueNames(s)
    requires var i := FindColumn(s, name); i >= 0 && s[i].ty == Leaf(DateType)
    ensures Eligible(ToCalendar, s, {name}) == []
    ensures Run(t, ToCalendar, Eligible(ToCalendar, s, {name})) == Outcome(t, true)
  {
    var i := FindColumn(s, name);
    forall j | 0 <= j < |s| && s[j].name in {name}
      ensures !Accepts(ToCalendar, s[j].ty)
    {
      assert j == i;
    }
    EligibleNone(ToCalendar, s, {name});
  }

  /** When no column named in the subset has an accepted type, nothing is picked. */
  lemma {:induction false} EligibleNone(c: Conversion, s: Schema, subset: set<string>)
    requires forall j :: 0 <= j < |s| && s[j].name in subset ==> !Accepts(c, s[j].ty)
    ensures Eligible(c, s, subset) == []
  {
    if s != [] {
      var init := s[..|s| - 1];
      assert forall j :: 0 <= j < |init| ==> init[j] == s[j];
      EligibleNone(c, init, subset);
    }
  }

  predicate Distinct(names: seq<string>) {
    forall a, b :: 0 <= a < b < |names| ==> names[a] != names[b]
  }

  lemma {:induction false} EligibleDistinct(c: Conversion, s: Schema, subset: set<string>)
    requires UniqueNames(s)
    ensures Distinct(Eligible(c, s, subset))
  {
    if s != [] {
      var init := s[..|s| - 1];
      assert UniqueNames(init);
      EligibleDistinct(c, init, subset);
      EligibleMeaning(c, init, subset);
      assert forall j :: 0 <= j < |init| ==> init[j] == s[j];
    }
  }

  /** A run never touches a column it does not name. */
  lemma {:induction false} RunUntouched(t: Table, c: Conversion, names: seq<string>, m: string)
    requires Shaped(t) && m !in names
    ensures Lookup(Run(t, c, names).table, m) == Lookup(t, m)
  {
    if names != [] {
      var init := names[..|names| - 1];
      RunUntouched(t, c, init, m);
      var prev := Run(t, c, init);
      if prev.ok && Convert(prev.table, c, names[|names| - 1]).Some? {
        ConvertLookupOthers(prev.table, c, names[|names| - 1]);
      }
    }
  }

  /** A run keeps column names unique. */
  lemma {:induction false} RunKeepsUnique(t: Table, c: Conversion, names: seq<string>)
    requires Shaped(t) && UniqueNames(t.schema)
    ensures UniqueNames(Run(t, c, names).table.schema)
  {
    if names != [] {
      RunKeepsUnique(t, c, names[..|names| - 1]);
    }
  }

  /** A successful run over distinct names converts every named column of the original table. */
  lemma {:induction false} RunConverts(t: Table, c: Conversion, names: seq<string>, n: string)
    requires Shaped(t) && UniqueNames(t.schema) && Distinct(names) && Run(t, c, names).ok && n in names
    ensures Lookup(t, n).Some? && Accepts(c, Lookup(t, n).value.ty)
    ensures Lookup(Run(t, c, names).table, n) == Some(Column(Target(c), MapCells(c, Lookup(t, n).value.vals)))
  {
    var init, x := names[..|names| - 1], names[|names| - 1];
    var prev := Run(t, c, init);
    assert prev.ok;
    ConvertLookupOthers(prev.table, c, x);
    if n == x {
      RunKeepsUnique(t, c, init);
      ConvertLookupSelf(prev.table, c, x);
      assert x !in init;
      RunUntouched(t, c, init, x);
    } else {
      assert n in init;
      assert Distinct(init);
      RunConverts(t, c, init, n);
    }
  }

  /** One more name: the run so far, then that name's rewrite if the run so far was accepted. */
  lemma RunStep(t: Table, c: Conversion, names: seq<string>, x: string)
    requires Shaped(t)
    ensures var prev := Run(t, c, names);
            Run(t, c, names + [x]) ==
              if !prev.ok then prev
              else if Convert(prev.table, c, x).None? then Outcome(prev.table, false)
              else Outcome(Convert(prev.table, c, x).value, true)
  {
    assert (names + [x])[..|names|] == names;
  }

  /** Once a rewrite is rejected, the rest of the run changes nothing. */
  lemma {:induction false} RunStops(t: Table, c: Conversion, a: seq<string>, b: seq<string>)
    requires Shaped(t) && !Run(t, c, a).ok
    ensures Run(t, c, a + b) == Run(t, c, a)
  {
    if b != [] {
      var ab := a + b;
      assert ab[..|ab| - 1] == a + b[..|b| - 1];
      RunStops(t, c, a, b[..|b| - 1]);
    } else {
      assert a + b == a;
    }
  }

  /**
   * The effect of `julian_to_calendar` or `calendar_to_julian` as a reader
   * sees it: a column is left alone unless the captured schema has it with
   * an accepted type and the subset names it; when the run is accepted,
   * each such column holds the converted values under the same name.
   */
  lemma ConversionEffect(t: Table, c: Conversion, s: Schema, subset: set<string>)
    requires Shaped(t) && UniqueNames(t.schema) && UniqueNames(s)
    ensures var o := Run(t, c, Eligible(c, s, subset));
            forall m :: (m !in subset || forall j :: 0 <= j < |s| && s[j].name == m ==> !Accepts(c, s[j].ty)) ==>
              Lookup(o.table, m) == Lookup(t, m)
    ensures var o := Run(t, c, Eligible(c, s, subset));
            o.ok ==> forall j :: 0 <= j < |s| && s[j].name in subset && Accepts(c, s[j].ty) ==>
              Lookup(t, s[j].name).Some? &&
              Lookup(o.table, s[j].name) == Some(Column(Target(c), MapCells(c, Lookup(t, s[j].name).value.vals)))
  {
    var names := Eligible(c, s, subset);
    EligibleMeaning(c, s, subset);
    EligibleDistinct(c, s, subset);
    forall m | m !in names
      ensures Lookup(Run(t, c, names).table, m) == Lookup(t, m)
    {
      RunUntouched(t, c, names, m);
    }
    if Run(t, c, names).ok {
      forall j | 0 <= j < |s| && s[j].name in subset && Accepts(c, s[j].ty)
        ensures Lookup(t, s[j].name).Some?
        ensures Lookup(Run(t, c, names).table, s[j].name) == Some(Column(Target(c), MapCells(c, Lookup(t, s[j].name).value.vals)))
      {
        RunConverts(t, c, names, s[j].name);
      }
    }
  }

  // ---------------------------------------------------------------------
  // The object

  class CommonTransforms {
    /** The schema of the table the object was made with; column selection always reads it. */
    const inputSchema: Schema
    var table: Table

    predicate Valid()
      reads this
    {
      Shaped(table)
    }

    constructor (df: Table)
      requires Shaped(df)
      ensures Valid() && table == df && inputSchema == df.schema
    {
      table := df;
      inputSchema := df.schema;
    }

    /** Rewrites the eligible columns one by one; a rejected rewrite stops the loop. */
    method ConvertColumns(c: Conversion, subset: set<string>) returns (ok: bool)
      requires Valid()
      modifies this
      ensures Valid()
      ensures Outcome(table, ok) == Run(old(table), c, Eligible(c, inputSchema, subset))
    {
      var current, schema := table, inputSchema;
      ghost var start := table;
      ok := true;
      var k := 0;
      while k < |schema| && ok
        invariant k <= |schema| && Shaped(current)
        invariant Outcome(current, ok) == Run(start, c, Eligible(c, schema[..k], subset))
      {
        var x := schema[k];
        ConvertStep(start, c, schema, subset, k, current);
        if Accepts(c, x.ty) && x.name in subset {
          var next := Convert(current, c, x.name);
          if next.None? {
            ok := false;
          } else {
            current := next.value;
          }
        }
        k := k + 1;
      }
      if ok {
        assert schema[..k] == schema;
      } else {
        RunStopsEarly(start, c, schema, subset, k);
      }
      table := current;
    }

    /** `julian_to_calendar`: every integer column of the captured schema named in the subset, decoded. */
    method JulianToCalendar(subset: set<string>) returns (ok: bool)
      requires Valid()
      modifies this
      ensures Valid()
      ensures Outcome(table, ok) == Run(old(table), ToCalendar, Eligible(ToCalendar, inputSchema, subset))
    {
      ok := ConvertColumns(ToCalendar, subset);
    }

    /** `calendar_to_julian`: every date or timestamp column of the captured schema named in the subset, encoded. */
    method CalendarToJulian(subset: set<string>) returns (ok: bool)
      requires Valid()
      modifies this
      ensures Valid()
      ensures Outcome(table, ok) == Run(old(table), ToJulian, Eligible(ToJulian, inputSchema, subset))
    {
      ok := ConvertColumns(ToJulian, subset);
    }
  }

  /** Looking at one more column of the schema adds that column's name if it is picked. */
  lemma EligibleStep(c: Conversion, s: Schema, subset: set<string>, k: nat)
    requires k < |s|
    ensures Eligible(c, s[..k + 1], subset) ==
            Eligible(c, s[..k], subset) + (if Accepts(c, s[k].ty) && s[k].name in subset then [s[k].name] else [])
  {
    assert s[..k + 1][..k] == s[..k];
  }

  /**
   * Looking at column k after an accepted run so far: a column that is not
   * picked leaves the outcome alone, a picked one is rewritten or rejects the run.
   */
  lemma ConvertStep(t: Table, c: Conversion, s: Schema, subset: set<string>, k: nat, current: Table)
    requires Shaped(t) && Shaped(current) && k < |s|
    requires Outcome(current, true) == Run(t, c, Eligible(c, s[..k], subset))
    ensures Run(t, c, Eligible(c, s[..k + 1], subset)) ==
              if !(Accepts(c, s[k].ty) && s[k].name in subset) then Outcome(current, true)
              else if Convert(current, c, s[k].name).None? then Outcome(current, false)
              else Outcome(Convert(current, c, s[k].name).value, true)
  {
    var before := Eligible(c, s[..k], subset);
    EligibleStep(c, s, subset, k);
    if Accepts(c, s[k].ty) && s[k].name in subset {
      RunStep(t, c, before, s[k].name);
    } else {
      assert before + [] == before;
    }
  }

  /** A run whose rewrite of the k-th column is rejected has the outcome of the run up to that column. */
  lemma RunStopsEarly(t: Table, c: Conversion, s: Schema, subset: set<string>, k: nat)
    requires Shaped(t) && k <= |s| && !Run(t, c, Eligible(c, s[..k], subset)).ok
    ensures Run(t, c, Eligible(c, s, subset)) == Run(t, c, Eligible(c, s[..k], subset))
  {
    EligiblePrefix(c, s, subset, k);
    var a := Eligible(c, s[..k], subset);
    RunStops(t, c, a, Eligible(c, s, subset)[|a|..]);
  }

  /** The columns picked from a prefix of the schema are a prefix of those picked from all of it. */
  lemma {:induction false} EligiblePrefix(c: Conversion, s: Schema, subset: set<string>, k: nat)
    requires k <= |s|
    ensures |Eligible(c, s[..k], subset)| <= |Eligible(c, s, subset)|
    ensures Eligible(c, s, subset) == Eligible(c, s[..k], subset) + Eligible(c, s, subset)[|Eligible(c, s[..k], subset)|..]
    decreases |s| - k
  {
    if k == |s| {
      assert s[..k] == s;
    } else {
      EligiblePrefix(c, s, subset, k + 1);
      assert s[..k + 1][..k] == s[..k];
    }
  }
}
